=== FILE: README.md ===
# Zero-shot farm-insect classifier — a Dafny model

The repository classifies photographs of farm pests with a pretrained
vision-language model. `name.py` builds the catalog of text prompts
("a photo of adult Aphids", ..., "a photo of Citrus Canker"). `zeroshot.py`
lists the image files of every class folder in natural order, asks the
classifier for the most likely prompt of each image, turns the prompt back
into a class name, and compares that name with the folder name. It then
prints per-class and overall accuracy, the distribution of predicted
classes and the mean confidence, and saves the same figures as reports.

This project models that pipeline as pure Dafny functions and proves what it
promises:

| module | file | models |
|---|---|---|
| `Wrappers` | `wrappers.dfy` | `Option` and `Result` |
| `Text` | `text.dfy` | ASCII `lower()`, substring search (`in`), `str.split` and its inverse |
| `PromptCatalog` | `catalog.dfy` | the prompt catalog of `name.py`: the empty-stage guard, the Citrus Canker exception, set de-duplication, its exact size |
| `LabelNormalizer` | `normalize.dfy` | `extract_class_from_label` and its round trip over the catalog |
| `StableSort` | `stable_sort.dfy` | Python's stable `sort`/`sorted`, as insertion sort on sequences |
| `NaturalSort` | `natural_sort.dfy` | `natural_sort_key`: `re.split('([0-9]+)', name)`, the key, Python's list order on keys |
| `Classification` | `classification.dfy` | the per-image record and the per-folder loop of the main block |
| `Statistics` | `statistics.dfy` | correctness counts, accuracy, `label_counts` and its ranking, mean confidences, the console summary (both as written and corrected), the report rows |

The classifier is a parameter `ImagePath -> Option<Prediction>`, called on
the folder and file name of each image: `None` is the
`except` branch of `classify_image`. `Classification.Honest` states its
contract (the prompt comes from the catalog and the confidence lies in
[0, 1]), and the lemmas that need it say so.

The console summary can raise. `label.lower()` fails on the `None` key that
failed images put into `label_counts`, and the mean confidence of an empty
class divides by zero. `Statistics.SummarizeAsWritten` models that code as
written and returns `Err(Crash)`. `Statistics.Summarize` is the corrected
summary that the rest of the model uses: failures keep their own entry, and
an empty class averages to 0, as the saved reports already do. See
"## Findings".

The model follows name.py and zeroshot.py as written:

- The exception is the single hard-coded label "Citrus Canker".
- Empty label or stage lists give an empty catalog, not an error.
- The console summary can raise (see "## Findings").

## Model

| member | source | states |
|---|---|---|
| Text.Lower | zeroshot.py:240 | lower-casing keeps the length, leaves no upper-case letter, and keeps every digit a digit |
| Text.LowerIdempotent | zeroshot.py:35 | lower-casing twice is lower-casing once |
| Text.Contains | zeroshot.py:72 | no contract of its own: `p in s`; see IndexOfFirst, which states it holds exactly when `p` occurs somewhere |
| Text.IndexOf | zeroshot.py:72 | a position found is one where the pattern occurs |
| Text.IndexOfFirst | zeroshot.py:72 | the position found is the first occurrence, and nothing is found exactly when the pattern occurs nowhere |
| Text.Split | zeroshot.py:74 | for a non-empty separator, a split always has at least one part |
| Text.SplitOnePartIff | zeroshot.py:74-75 | for a non-empty separator, the split has one part exactly when the separator does not occur, so the second part exists exactly when it does |
| Text.SplitPartsLackSeparator | zeroshot.py:74 | for a non-empty separator, no part of a split contains it |
| Text.JoinSplit | zeroshot.py:74 | for a non-empty separator, joining the parts of a split with it gives back the string |
| Text.SplitLeadingSeparator | zeroshot.py:74 | for a non-empty separator, a string that starts with it splits into an empty first part followed by the split of the rest |
| PromptCatalog.Staged | name.py:35 | no contract of its own: the f-string `a photo of {stage} {label}`; see StagedInjective |
| PromptCatalog.NonEmpty | name.py:30 | the stages the `if stage` guard keeps: exactly the non-empty ones |
| PromptCatalog.PromptFor | name.py:31-35 | no contract of its own: the prompt text for one label and stage; see StagedInjective and ExceptionLabelPrompts |
| PromptCatalog.LabelPrompts | name.py:28-35 | no contract of its own: the inner loop with the `if stage` guard and the exception; see EmptyStageIsDead, ExceptionLabelPrompts and OrdinaryLabelPrompts |
| PromptCatalog.Generate | name.py:26-35 | no contract of its own: the prompt list in loop order, before de-duplication; see CatalogMembership and CatalogComplete |
| PromptCatalog.Catalog | name.py:38 | no contract of its own: the de-duplicated prompts; see CatalogMembership and CatalogSize |
| PromptCatalog.CatalogMembership | name.py:26-38 | a prompt is in the catalog exactly when it is "a photo of {stage} {label}" for a label other than Citrus Canker and a non-empty stage, or "a photo of Citrus Canker" when that label and some non-empty stage are configured |
| PromptCatalog.CatalogPromptsStartWithPrefix | name.py:32-35 | every prompt in the catalog starts with "a photo of " |
| PromptCatalog.CatalogComplete | name.py:27-35 | every ordinary label paired with every non-empty stage is in the catalog |
| PromptCatalog.EmptyStageIsDead | name.py:30 | the prompt list is the same whether or not the empty stages are dropped first |
| PromptCatalog.AddingEmptyStageChangesNothing | name.py:4 | adding an empty stage to the configuration leaves the catalog unchanged |
| PromptCatalog.ExceptionLabelPrompts | name.py:31-32 | the exception label contributes exactly the one stage-less prompt once some stage is non-empty |
| PromptCatalog.OrdinaryLabelPrompts | name.py:34-35 | for distinct non-empty stages, a label other than Citrus Canker contributes one prompt per stage, all different |
| PromptCatalog.StagedInjective | name.py:35 | with single-word stages, a staged prompt determines its stage and its label |
| PromptCatalog.DistinctLabelsDistinctPrompts | name.py:31-35 | for single-word stages that, followed by a blank, do not start "Citrus Canker", prompts of two different labels never coincide |
| PromptCatalog.CatalogSize | name.py:26-38 | for distinct labels and distinct single-word stages that, followed by a blank, do not start "Citrus Canker", the catalog has labels × stages prompts, less stages − 1 when the exception label is present |
| PromptCatalog.DefaultCatalogSize | name.py:4-38 | the configured lists give 57 distinct prompts |
| LabelNormalizer.ExtractClass | zeroshot.py:69-84 | no contract of its own; see ExtractWithoutPrefix, ExtractOfPrefixed, ExtractTakesPromptPart, ExtractStaged, ExtractUnstaged and the round-trip lemmas below |
| LabelNormalizer.StripStage | zeroshot.py:78-82 | without a stage prefix the text is unchanged; otherwise the first listed stage that is a prefix, and only that one, is removed |
| LabelNormalizer.ExtractWithoutPrefix | zeroshot.py:72-84 | a prompt without "a photo of " is returned unchanged |
| LabelNormalizer.ExtractOfPrefixed | zeroshot.py:72-83 | after a single leading "a photo of ", the class is the rest with at most one stage removed |
| LabelNormalizer.ExtractTakesPromptPart | zeroshot.py:72-83 | the class is the text between the first "a photo of " and the next one (or the end), with one stage prefix removed |
| LabelNormalizer.ExtractStaged | zeroshot.py:72-83 | "a photo of " + stage + L gives L when stage + L does not contain "a photo of " |
| LabelNormalizer.ExtractUnstaged | zeroshot.py:72-83 | "a photo of " + L gives L when L has no stage prefix and does not contain "a photo of " |
| LabelNormalizer.OnlyOneStageStripped | zeroshot.py:79-82 | the loop stops after the first stage: "a photo of " + two stages + L gives the second stage + L, which still starts with a stage |
| LabelNormalizer.StagedExample | zeroshot.py:69-84 | "a photo of adult Aphids" gives "Aphids" |
| LabelNormalizer.UnstagedExample | zeroshot.py:69-84 | "a photo of Citrus Canker" gives "Citrus Canker" |
| LabelNormalizer.ForeignExample | zeroshot.py:72-84 | "not a matching string" is returned unchanged |
| LabelNormalizer.LabelFreeOfPrefixIsNotEnough | zeroshot.py:74-75 | a label free of "a photo of " can still be cut: "a photo of larva photo of X" gives "larv" |
| LabelNormalizer.CatalogPromptsGiveLabels | zeroshot.py:69-84 | for recoverable labels and stages, every catalog prompt normalises to one of the labels |
| LabelNormalizer.EveryLabelRecovered | zeroshot.py:69-84 | for recoverable labels and stages with at least one non-empty stage, every label is the class of some catalog prompt |
| LabelNormalizer.DefaultRecoverable | name.py:7-38 | the configured labels and stages meet the recovery conditions, so the lemmas stated for recoverable catalogs apply to them |
| LabelNormalizer.DefaultCatalogRoundTrip | name.py:7-38 | every prompt of the configured catalog normalises to one of the 15 labels, and each label is recovered |
| StableSort.Sort | zeroshot.py:38 | the sorted list is a permutation of the input; its order and stability are stated by SortSorted, SortOrdered and SortStable |
| StableSort.SortSorted | zeroshot.py:306 | with an asymmetric order, no element comes directly after one it is less than |
| StableSort.SortOrdered | zeroshot.py:38 | with a strict order whose "not less" is transitive, no element comes after one it is less than, neighbouring or not |
| StableSort.SortStable | zeroshot.py:306 | under a descending sort by an integer key, elements with equal keys keep their input order |
| NaturalSort.SplitDigits | zeroshot.py:35 | no contract of its own: `re.split('([0-9]+)', name)`; see SplitDigitsShape, SplitDigitsConcat and SplitDigitsUnique |
| NaturalSort.IsDigitString | zeroshot.py:35 | no contract of its own: `text.isdigit()` on ASCII, a non-empty run of decimal digits; see SplitDigitsShape, ShorterRunIsSmaller and LeadingZeroIgnored |
| NaturalSort.Int | zeroshot.py:35 | no contract of its own: `int(text)` of a decimal digit string; see LeadingZeroIgnored, ZerosIgnored and ShorterRunIsSmaller |
| NaturalSort.SegmentKey | zeroshot.py:35 | no contract of its own: `int(text)` for a digit run, `text.lower()` otherwise; see LeadingZeroIgnored, ShorterRunIsSmaller and CaseIgnored |
| NaturalSort.NaturalKey | zeroshot.py:32-35 | no contract of its own; see NaturalKeyIsKey, NaturalKeysComparable and PaddedNamesTie |
| NaturalSort.KeyLess | zeroshot.py:38 | no contract of its own: Python's `<` on key lists; see KeyLessTransitive, KeyLessTotal and NumericOrder |
| NaturalSort.StrLess | zeroshot.py:35-38 | no contract of its own: Python's `<` on the lower-cased text parts, by code point with a proper prefix first; see StrLessTransitive and StrLessTotal |
| NaturalSort.SplitDigitsShape | zeroshot.py:35 | the split alternates text and digit runs: odd length, digit-free text, non-empty all-digit runs |
| NaturalSort.SplitDigitsConcat | zeroshot.py:35 | the parts concatenate back to the file name |
| NaturalSort.SplitDigitsUnique | zeroshot.py:35 | any alternating split that concatenates to the name is the split of the name |
| NaturalSort.NaturalKeyIsKey | zeroshot.py:32-35 | a key has odd length, lower-case digit-free text at even positions and integers at odd positions |
| NaturalSort.NaturalKeysComparable | zeroshot.py:32-35 | two keys never compare an integer with a string |
| NaturalSort.KeyLessTransitive | zeroshot.py:38 | Python's `<` is transitive on keys that are pairwise comparable, as all natural keys are (NaturalKeysComparable) |
| NaturalSort.KeyLessTotal | zeroshot.py:38 | of two different comparable keys (any two natural keys), one is smaller than the other |
| NaturalSort.NameLessAsymmetric | zeroshot.py:38 | when one name has the smaller key, the other does not also have the smaller key |
| NaturalSort.NameNotLessTransitive | zeroshot.py:38 | on file names, "no smaller key" is transitive, so the names are totally preordered by key |
| NaturalSort.NameLess | zeroshot.py:38 | no contract of its own: the comparison `sort(key=natural_sort_key)` uses; see NameLessAsymmetric, NameNotLessTransitive and NumericOrder |
| NaturalSort.SortFiles | zeroshot.py:38-39 | the sorted listing is a permutation of the files in which no file comes after one with a greater key, neighbouring or not |
| NaturalSort.NumericOrder | zeroshot.py:35 | between the same digit-free texts, the name with the smaller number sorts first |
| NaturalSort.TwoBeforeTen | zeroshot.py:35 | with the same digit-free text around the number, "2" sorts before "10" (so "img2.jpg" before "img10.jpg") |
| NaturalSort.ShorterRunIsSmaller | zeroshot.py:35 | a digit run is smaller than any longer run that has no leading zero |
| NaturalSort.LeadingZeroIgnored | zeroshot.py:35 | a leading zero does not change the value of a digit run |
| NaturalSort.PaddedNamesTie | zeroshot.py:35 | padding any of the numbers of any name with any number of zeros leaves its key unchanged |
| NaturalSort.CaseIgnored | zeroshot.py:35 | any two names that are equal up to case have equal keys |
| NaturalSort.NaturalKeyOfLower | zeroshot.py:35 | a name and its lower-cased form have the same key |
| NaturalSort.SplitDigitsOfLower | zeroshot.py:35 | the split of a lower-cased name is the split with every part lower-cased |
| NaturalSort.ZerosIgnored | zeroshot.py:35 | any number of leading zeros leaves the value of a digit run unchanged |
| Classification.Honest | zeroshot.py:42-67 | no contract of its own: the assumed behaviour of `classify_image`, a catalog prompt with a probability in [0, 1] or the `except` branch |
| Classification.GetImageFiles | zeroshot.py:20-40 | a listed folder keeps every file of the listing, in an order where no file comes after one with a greater natural key |
| Classification.MakeRecord | zeroshot.py:237-264 | no contract of its own; see FailureRecord, SuccessRecord and CorrectImpliesPredicted |
| Classification.ClassifyFolder | zeroshot.py:227-264 | no contract of its own: every file classified by its path; see ClassifyFolderOnePerFile |
| Classification.ClassifyAll | zeroshot.py:225-264 | no contract of its own; see RecordsConserved and Statistics.ClassifiedRunTotals |
| Classification.SameClass | zeroshot.py:240 | no contract of its own: `a.lower() == b.lower()`; see SuccessRecord |
| Classification.FileCount | zeroshot.py:219 | no contract of its own: `total_files` as first computed; see RecordsConserved |
| Classification.RecordCount | zeroshot.py:301 | no contract of its own: `total_files` as recounted; see RecordsConserved |
| Classification.FailureRecord | zeroshot.py:255-264 | a failed classification, or an empty prompt, gives no label, no class, confidence 0.0 and not correct |
| Classification.SuccessRecord | zeroshot.py:237-253 | a prediction keeps its prompt and confidence, and is correct exactly when the extracted class equals the folder name up to case |
| Classification.CorrectImpliesPredicted | zeroshot.py:240 | a record counted as correct has a predicted class |
| Classification.PredictionsAreLabels | zeroshot.py:233-239 | with an honest classifier over a recoverable catalog, every predicted class is one of its labels and every confidence lies in [0, 1] |
| Classification.CorrectMeansFolderIsLabel | zeroshot.py:240 | with an honest classifier over a recoverable catalog, an image is judged correct only in a folder named like one of its labels |
| Classification.CatalogPromptsNonEmpty | name.py:32-35 | every catalog prompt is non-empty |
| Classification.FailedExactlyWhenClassifierFailed | zeroshot.py:235-237 | with an honest classifier, a record lacks a class exactly when the classifier failed |
| Classification.ClassifyFolderOnePerFile | zeroshot.py:227-264 | a folder gets exactly one record per image file, in file order |
| Classification.RecordsInNaturalOrder | zeroshot.py:226-264 | the records of a listed folder are one per file of the listing, in natural order of their file names |
| Classification.RecordsConserved | zeroshot.py:301 | the records of all classes are as many as the image files counted at line 219 |
| Statistics.MeanConfidence | zeroshot.py:145 | the guarded mean of no records is 0; see MeanConfidenceInRange and MeanTimesCount |
| Statistics.Percent | zeroshot.py:299 | the guarded percentage of an empty whole is 0, and no percentage is negative; see PercentFacts |
| Statistics.MeanConfidenceInRange | zeroshot.py:145 | the mean of confidences in [0, 1] lies in [0, 1] |
| Statistics.MeanTimesCount | zeroshot.py:145 | the mean times the number of records is the total confidence |
| Statistics.PercentFacts | zeroshot.py:299 | a percentage times its whole is 100 times the part, at most 100 when the part is at most the whole, 100 when they are equal |
| Statistics.RecountedCorrect | zeroshot.py:289 | no contract of its own: the recount with its falsy-class test; see RecountMatchesStored and MatchingIsCorrect |
| Statistics.CorrectCount | zeroshot.py:285-291 | the correct count is at most the number of records, 0 when none is correct and all of them when all are |
| Statistics.StoredCorrectCount | zeroshot.py:143 | the reports' count of stored flags is at most the number of records, 0 when no flag is set and all of them when every flag is |
| Statistics.RecountMatchesStored | zeroshot.py:289 | the recomputed correctness equals the stored flag unless the folder name and the predicted class are both empty |
| Statistics.RecountAgreesWithReport | zeroshot.py:143 | for a named folder, the console's correct count equals the reports' count of stored flags |
| Statistics.EmptyClassOnlyStoredCorrect | zeroshot.py:289 | in an unnamed folder, an empty predicted class is stored as correct but not recounted as correct |
| Statistics.Bump | zeroshot.py:294-297 | no contract of its own: one step of the counting loop; see TallyCounts |
| Statistics.Tally | zeroshot.py:294-297 | no contract of its own: `label_counts`; see TallyCounts, TallyFirstSeen and TallyWeights |
| Statistics.RankByCount | zeroshot.py:306 | no contract of its own; see RankByCountOrders and RankWeights |
| Statistics.TallyCounts | zeroshot.py:294-297 | the counts have distinct keys, each key counts its records and is at least 1, and every predicted class (failures included) has an entry |
| Statistics.TallyFirstSeen | zeroshot.py:294-297 | the entries appear in the order their classes were first predicted |
| Statistics.TallyWeights | zeroshot.py:294-297 | the counts add up to the number of records, and the matching entries to the matching records |
| Statistics.RankByCountOrders | zeroshot.py:306 | the ranking is a permutation of the counts, no entry outranks an earlier one with a greater count, and equal counts keep first-seen order |
| Statistics.RankWeights | zeroshot.py:306 | ranking preserves the total count and the matching count |
| Statistics.Matches | zeroshot.py:309 | no contract of its own: `is_match`, which a failure never satisfies; see MatchingIsCorrect |
| Statistics.MatchingIsCorrect | zeroshot.py:289-309 | for a named class, the records whose class matches are exactly the ones counted correct |
| Statistics.SummarizeClass | zeroshot.py:279-315 | no contract of its own: the corrected class summary; see ClassAccuracy, ClassDistribution, ClassConfidenceInRange and EmptyClassSummary |
| Statistics.SummarizeClassAsWritten | zeroshot.py:279-315 | no contract of its own; see ClassCrashes |
| Statistics.ClassAccuracy | zeroshot.py:298-299 | a class's correct count is at most its size, and its accuracy is their percentage, in [0, 100], 0 for an empty class |
| Statistics.ClassDistributionTotals | zeroshot.py:294-311 | the distribution accounts for every record and is non-increasing, and for a class with a non-empty name its matching lines add up to the correct count |
| Statistics.ClassDistribution | zeroshot.py:294-306 | the distribution lists every predicted class, failures included, exactly once (no two entries share a key), with its number of records |
| Statistics.FailureListed | zeroshot.py:294-309 | a None entry is listed exactly when some image of the class failed |
| Statistics.ClassCrashes | zeroshot.py:306-314 | the class summary as written raises at line 309 exactly when an image failed, at line 314 exactly when the class is empty, and otherwise equals the corrected summary |
| Statistics.PercentagesAddUp | zeroshot.py:307 | the percentages of the corrected distribution of a non-empty class add up to 100 |
| Statistics.ClassConfidenceInRange | zeroshot.py:314 | when every confidence lies in [0, 1], so does the mean confidence of the class |
| Statistics.EmptyClassSummary | zeroshot.py:298-314 | the corrected summary of an empty class has accuracy 0, mean confidence 0 and no distribution |
| Statistics.ThreeImageClass | zeroshot.py:285-314 | two correct images out of three, with confidences 0.9, 0.4 and 0.7, give accuracy 200/3 and mean confidence 2/3 |
| Statistics.Summarize | zeroshot.py:271-325 | no contract of its own: the corrected run summary; see RunTotals, RunAccuracy and RunConfidence |
| Statistics.ClassSummaries | zeroshot.py:274 | one corrected class summary per class, in the order the loop visits `class_results` |
| Statistics.SummarizeAsWritten | zeroshot.py:271-325 | no contract of its own; see RunCrashes |
| Statistics.FirstCrash | zeroshot.py:274-314 | no contract of its own: the error of the first class, in order, whose summary raises, which ends the run; see RunCrashes |
| Statistics.TotalCorrect | zeroshot.py:300 | no contract of its own: `total_correct`; see RunTotals and RunAccuracy |
| Statistics.OverallAvgConfidence | zeroshot.py:321-325 | no contract of its own: the mean over all records, as in lines 90-95; see RunConfidence and OverallConfidenceInRange |
| Statistics.AllRecords | zeroshot.py:321-324 | no contract of its own: every record, class by class, as `all_confidences` collects them; see RunTotals and RunConfidence |
| Statistics.RunTotals | zeroshot.py:300-301 | the run's totals are the sums of the per-class totals and correct counts |
| Statistics.RunAccuracy | zeroshot.py:318 | the overall accuracy is the percentage of correct records, in [0, 100], 0 for a run without records |
| Statistics.RunConfidence | zeroshot.py:321-325 | the overall mean confidence times the number of records is the sum of the class means weighted by class size |
| Statistics.OverallConfidenceInRange | zeroshot.py:321-325 | when every confidence lies in [0, 1], so does the overall mean confidence |
| Statistics.MeanOfMeansDiffers | zeroshot.py:321-325 | the overall mean is not the mean of the class means: for classes with confidences [1.0] and [0.0, 0.0] they are 1/3 and 1/2 |
| Statistics.RunCrashes | zeroshot.py:274-314 | the summary as written raises exactly when some class is empty or has a failed image, and otherwise equals the corrected summary |
| Statistics.ClassifiedRunTotals | zeroshot.py:301 | the recounted total of a classified run is the number of image files found |
| Statistics.ClassifiedFolderAborts | zeroshot.py:306-314 | with an honest classifier, a class summary raises exactly when its folder is empty or an image could not be classified |
| Statistics.ClassifiedRunCrashes | zeroshot.py:306-314 | with an honest classifier, the run raises exactly when some folder is empty or some image could not be classified |
| Statistics.UnreadableImageAbortsRun | zeroshot.py:309 | one unreadable image in a folder ends the run with the `lower()` error |
| Statistics.EmptyFolderAbortsRun | zeroshot.py:314 | an empty folder ends the run with a division by zero |
| Statistics.UnreadableImageSummarized | zeroshot.py:294-314 | the corrected summary of that folder lists the failure under its own entry with accuracy 0 |
| Statistics.ReportRowOf | zeroshot.py:142-145 | no contract of its own: one row of the summary report; see ReportAgreesWithConsole and EmptyReportRow |
| Statistics.ReportAgreesWithConsole | zeroshot.py:143-145 | for a named folder, the saved report row equals the console summary's figures |
| Statistics.EmptyReportRow | zeroshot.py:143-145 | the report row of an empty class is all zeros |

## Left out

- CLIP model loading and inference (`load_model_and_processor`, the tensor work, softmax and argmax of `classify_image`). The classifier is a function parameter. `Classification.Honest` states the contract it is assumed to meet.
- `os.walk` and the root-folder exclusion in `get_image_files`. `Classification.GetImageFiles` takes one folder's name and its listing of file base names; the run lemmas take the resulting `Classification.Folder` values. Every file of one folder shares the same directory, so sorting base names orders the paths the same way. The classifier receives `Classification.ImagePath(folder, file)`, which stands for `os.path.join(root, file)` below the one data directory.
- Folders that share a base name overwrite each other in the `folder_files` dictionary. The model takes a sequence of folders and does not merge them.
- The order of `list(set(text_prompts))` is Python's set iteration order. The catalog is modelled as a set.
- `save_results` file writing (JSON, CSV, text and README reports), timestamps, all `print` output, and the `.1f`/`.3f` formatting. Only the figures written are modelled (`Statistics.ReportRowOf`, `Statistics.OverallAvgConfidence`).
- Floating point. Confidences, sums, means and percentages are exact reals.
- Unicode. `lower()` and `isdigit()` are modelled on ASCII only. Python's versions also treat non-ASCII letters and digits. A non-ASCII digit run could make `isdigit()` true, and `int()` would then parse or raise.
- NaturalSort.SortFiles: the order among names with equal keys (for example "img7" and "IMG007") is not stated. Python's sort keeps their listing order.
- The classifier's softmax guarantee is assumed through `Classification.Honest` rather than derived.

## Findings

| source | as written | input that shows it | evidently intended | confidence | as-written member | corrected member |
|---|---|---|---|---|---|---|
| zeroshot.py:306-309 | `label.lower()` runs on every key of `label_counts`, including the `None` key that a failed image adds, and raises `AttributeError` before any report is saved | one class folder "Aphids" holding one file the classifier cannot read | a failed image counts as a wrong prediction under its own entry and the run completes, as the error handling in `classify_image` and the reports' fallback text for a missing class show | high; not executed | Statistics.UnreadableImageAbortsRun | Statistics.UnreadableImageSummarized |
| zeroshot.py:314 | the mean confidence divides by `len(results)` without the `if results else 0` guard that lines 145, 172 and 201 use, and raises `ZeroDivisionError` | one class folder "Aphids" holding no files (`os.walk` lists every sub-directory, including empty ones) | an empty class has mean confidence 0 | high; not executed | Statistics.EmptyFolderAbortsRun | Statistics.EmptyClassSummary |

=== FILE: catalog.dfy ===
/**
 The prompt catalog of name.py: every pest label is paired with every
 life-cycle stage, the empty stage is skipped, the label "Citrus Canker" gets
 one stage-less prompt, and duplicates are removed by passing through a set.
 */
module PromptCatalog {
  import opened Wrappers
  import opened Text

  /** The life-cycle stages, in the order name.py lists them. */
  const Stages: seq<string> := ["adult", "larva", "pupa", "egg"]

  /** The pest labels, in the order name.py lists them. */
  const Labels: seq<string> := [
    "Western Corn Rootworms",
    "Citrus Canker",
    "Fruit Flies",
    "Africanized Honey Bees (Killer Bees)",
    "Aphids",
    "Colorado Potato Beetles",
    "Thrips",
    "Corn Earworms",
    "Fall Armyworms",
    "Corn Borers",
    "Cabbage Loopers",
    "Brown Marmorated Stink Bugs",
    "Spider Mites",
    "Tomato Hornworms",
    "Armyworms"
  ]

  /** The one label whose prompts carry no stage. */
  const ExceptionLabel: string := "Citrus Canker"

  /** The text every prompt starts with. */
  const PhotoPrefix: string := "a photo of "

  /** `f'a photo of {stage} {label}'`. */
  function Staged(stage: string, pest: string): string
  {
    PhotoPrefix + stage + " " + pest
  }

  /** `f'a photo of {label}'` for the exception label. */
  const ExceptionPrompt: string := PhotoPrefix + ExceptionLabel

  /** The prompt the inner loop appends for a label and a non-empty stage. */
  function PromptFor(pest: string, stage: string): string
  {
    if pest == ExceptionLabel then PhotoPrefix + pest else Staged(stage, pest)
  }

  /** The prompts appended, in order, for one label (the inner loop). */
  function LabelPrompts(pest: string, stages: seq<string>): seq<string>
  {
    if |stages| == 0 then []
    else if stages[0] == "" then LabelPrompts(pest, stages[1..])
    else [PromptFor(pest, stages[0])] + LabelPrompts(pest, stages[1..])
  }

  /** `text_prompts` before de-duplication (both loops). */
  function Generate(labels: seq<string>, stages: seq<string>): seq<string>
  {
    if |labels| == 0 then [] else LabelPrompts(labels[0], stages) + Generate(labels[1..], stages)
  }

  /** `set(text_prompts)`: the catalog the classifier chooses from. */
  function Catalog(labels: seq<string>, stages: seq<string>): set<string>
  {
    set p | p in Generate(labels, stages)
  }

  /** The catalog of the configured lists. */
  function DefaultCatalog(): set<string>
  {
    Catalog(Labels, Stages)
  }

  predicate NoDup<T(==)>(s: seq<T>)
  {
    forall i, j :: 0 <= i < j < |s| ==> s[i] != s[j]
  }

  /** A single word: a stage with no blank inside. */
  predicate IsWord(s: string)
  {
    s != "" && ' ' !in s
  }

  /** The stages kept by the `if stage` guard. */
  function NonEmpty(stages: seq<string>): (r: seq<string>)
    ensures forall s :: s in r <==> s in stages && s != ""
  {
    if |stages| == 0 then []
    else if stages[0] == "" then NonEmpty(stages[1..])
    else [stages[0]] + NonEmpty(stages[1..])
  }

  // ---------------------------------------------------------------------------
  // Membership

  lemma {:induction false} LabelPromptsMembership(pest: string, stages: seq<string>, p: string)
    ensures p in LabelPrompts(pest, stages) <==>
            exists s :: s in stages && s != "" && p == PromptFor(pest, s)
    decreases |stages|
  {
    if |stages| > 0 {
      LabelPromptsMembership(pest, stages[1..], p);
      assert forall s :: s in stages <==> s == stages[0] || s in stages[1..];
    }
  }

  /**
   A string is emitted by the two loops exactly when it is the prompt of some
   label and some non-empty stage.
   */
  lemma {:induction false} GenerateMembership(labels: seq<string>, stages: seq<string>, p: string)
    ensures p in Generate(labels, stages) <==>
            exists l, s :: l in labels && s in stages && s != "" && p == PromptFor(l, s)
    decreases |labels|
  {
    if |labels| > 0 {
      LabelPromptsMembership(labels[0], stages, p);
      GenerateMembership(labels[1..], stages, p);
      assert forall l :: l in labels <==> l == labels[0] || l in labels[1..];
    }
  }

  /**
   Every catalog entry is one of the two templates: a staged prompt of an
   ordinary label and a non-empty stage, or the stage-less prompt of the
   exception label; and every such prompt is in the catalog.
   */
  lemma CatalogMembership(labels: seq<string>, stages: seq<string>, p: string)
    ensures p in Catalog(labels, stages) <==>
            (exists l, s :: l in labels && l != ExceptionLabel && s in stages && s != "" && p == Staged(s, l))
            || (p == ExceptionPrompt && ExceptionLabel in labels && exists s :: s in stages && s != "")
  {
    GenerateMembership(labels, stages, p);
  }

  /** Every prompt of the catalog starts with "a photo of ". */
  lemma CatalogPromptsStartWithPrefix(labels: seq<string>, stages: seq<string>, p: string)
    requires p in Catalog(labels, stages)
    ensures PhotoPrefix <= p
  {
    CatalogMembership(labels, stages, p);
    if p != ExceptionPrompt {
      var l, s :| l in labels && l != ExceptionLabel && s in stages && s != "" && p == Staged(s, l);
      assert p == PhotoPrefix + (s + " " + l);
    }
  }

  /** Every ordinary label paired with every non-empty stage is in the catalog. */
  lemma CatalogComplete(labels: seq<string>, stages: seq<string>, l: string, s: string)
    requires l in labels && l != ExceptionLabel && s in stages && s != ""
    ensures Staged(s, l) in Catalog(labels, stages)
  {
    CatalogMembership(labels, stages, Staged(s, l));
  }

  // ---------------------------------------------------------------------------
  // The empty-stage guard

  lemma {:induction false} LabelPromptsIgnoreEmpty(pest: string, stages: seq<string>)
    ensures LabelPrompts(pest, stages) == LabelPrompts(pest, NonEmpty(stages))
    decreases |stages|
  {
    if |stages| > 0 {
      LabelPromptsIgnoreEmpty(pest, stages[1..]);
      if stages[0] != "" {
        assert NonEmpty(stages)[1..] == NonEmpty(stages[1..]);
      }
    }
  }

  /**
   An empty stage contributes nothing: the emitted list, duplicates included,
   is the same as for the stages with every empty entry removed.
   */
  lemma {:induction false} EmptyStageIsDead(labels: seq<string>, stages: seq<string>)
    ensures Generate(labels, stages) == Generate(labels, NonEmpty(stages))
    decreases |labels|
  {
    if |labels| > 0 {
      LabelPromptsIgnoreEmpty(labels[0], stages);
      EmptyStageIsDead(labels[1..], stages);
    }
  }

  /** Appending an empty stage to the configuration leaves the catalog unchanged. */
  lemma AddingEmptyStageChangesNothing(labels: seq<string>, stages: seq<string>)
    ensures Catalog(labels, stages + [""]) == Catalog(labels, stages)
  {
    forall p ensures p in Catalog(labels, stages + [""]) <==> p in Catalog(labels, stages) {
      GenerateMembership(labels, stages + [""], p);
      GenerateMembership(labels, stages, p);
    }
  }

  // ---------------------------------------------------------------------------
  // Size of the catalog

  /** Staged prompts of the same label differ whenever their stages do. */
  lemma SameLabelStagedInjective(s: string, s': string, pest: string)
    requires Staged(s, pest) == Staged(s', pest)
    ensures s == s'
  {
    assert |s| == |s'|;
    assert s == Staged(s, pest)[|PhotoPrefix|..|PhotoPrefix| + |s|];
    assert s' == Staged(s', pest)[|PhotoPrefix|..|PhotoPrefix| + |s'|];
  }

  /** In `s + " " + rest` with `s` a single word, the first blank is the one after `s`. */
  lemma FirstBlank(s: string, rest: string)
    requires ' ' !in s
    ensures IndexOf(s + " " + rest, " ") == Some(|s|)
  {
    var a := s + " " + rest;
    assert a[|s|..|s| + 1] == " ";
    assert OccursAt(a, " ", |s|);
    forall j: nat | j < |s|
      ensures !OccursAt(a, " ", j)
    {
      assert a[j..j + 1] == [s[j]];
    }
    IndexOfAt(a, " ", |s|);
  }

  lemma StagedTail(s: string, l: string)
    ensures Staged(s, l)[|PhotoPrefix|..] == s + " " + l
  {
  }

  /** With single-word stages a staged prompt determines both its stage and its label. */
  lemma StagedInjective(s: string, l: string, s': string, l': string)
    requires IsWord(s) && IsWord(s')
    requires Staged(s, l) == Staged(s', l')
    ensures s == s' && l == l'
  {
    var a := s + " " + l;
    var b := s' + " " + l';
    StagedTail(s, l);
    StagedTail(s', l');
    FirstBlank(s, l);
    FirstBlank(s', l');
    assert |s| == |s'|;
    assert s == a[..|s|] && s' == b[..|s'|];
    assert l == a[|s| + 1..] && l' == b[|s'| + 1..];
  }

  /** A staged prompt is the exception prompt only if its stage is the exception's first word. */
  lemma StagedExceptionFirstWord(s: string, l: string)
    ensures Staged(s, l) == ExceptionPrompt ==> s + " " <= ExceptionLabel
  {
    StagedTail(s, l);
    assert ExceptionPrompt[|PhotoPrefix|..] == ExceptionLabel;
    assert s + " " <= s + " " + l;
  }

  /** A staged prompt is never the exception prompt unless its stage is the exception's first word. */
  lemma StagedNotException(s: string, l: string)
    requires !(s + " " <= ExceptionLabel)
    ensures Staged(s, l) != ExceptionPrompt
  {
    StagedExceptionFirstWord(s, l);
  }

  lemma {:induction false} NoDupCard<T>(s: seq<T>)
    requires NoDup(s)
    ensures |set x | x in s| == |s|
    decreases |s|
  {
    if |s| > 0 {
      NoDupCard(s[1..]);
      assert (set x | x in s) == {s[0]} + (set x | x in s[1..]);
      assert s[0] !in s[1..];
    }
  }

  /** An ordinary label gets one distinct prompt per stage. */
  lemma {:induction false} OrdinaryLabelPrompts(pest: string, stages: seq<string>)
    requires pest != ExceptionLabel && NoDup(stages)
    requires forall s :: s in stages ==> s != ""
    ensures |LabelPrompts(pest, stages)| == |stages|
    ensures NoDup(LabelPrompts(pest, stages))
    decreases |stages|
  {
    if |stages| > 0 {
      var rest := LabelPrompts(pest, stages[1..]);
      assert stages[0] in stages;
      assert forall s :: s in stages[1..] ==> s in stages;
      assert NoDup(stages[1..]) by {
        forall i, j | 0 <= i < j < |stages[1..]| ensures stages[1..][i] != stages[1..][j] {
          assert stages[1..][i] == stages[i + 1] && stages[1..][j] == stages[j + 1];
        }
      }
      OrdinaryLabelPrompts(pest, stages[1..]);
      if Staged(stages[0], pest) in rest {
        LabelPromptsMembership(pest, stages[1..], Staged(stages[0], pest));
        var s :| s in stages[1..] && s != "" && Staged(stages[0], pest) == PromptFor(pest, s);
        SameLabelStagedInjective(stages[0], s, pest);
        assert false;
      }
      var r := LabelPrompts(pest, stages);
      assert r == [Staged(stages[0], pest)] + rest;
      forall i, j | 0 <= i < j < |r| ensures r[i] != r[j] {
        if i > 0 {
          assert r[i] == rest[i - 1] && r[j] == rest[j - 1];
        } else {
          assert r[j] in rest;
        }
      }
    }
  }

  /** The exception label contributes exactly the one stage-less prompt. */
  lemma ExceptionLabelPrompts(stages: seq<string>)
    requires exists s :: s in stages && s != ""
    ensures (set p | p in LabelPrompts(ExceptionLabel, stages)) == {ExceptionPrompt}
  {
    forall p ensures p in LabelPrompts(ExceptionLabel, stages) <==> p == ExceptionPrompt {
      LabelPromptsMembership(ExceptionLabel, stages, p);
    }
  }

  /**
   Prompts of two different labels never coincide, provided the stages are
   single words and neither, followed by a blank, starts the exception label.
   A stage with a blank, such as "a b", would give label "c" the prompt
   "a photo of a b c" that label "b c" gets at stage "a".
   */
  lemma DistinctLabelsDistinctPrompts(l: string, s: string, l': string, s': string)
    requires l != l' && IsWord(s) && IsWord(s')
    requires !(s + " " <= ExceptionLabel) && !(s' + " " <= ExceptionLabel)
    ensures PromptFor(l, s) != PromptFor(l', s')
  {
    if l == ExceptionLabel {
      StagedNotException(s', l');
    } else if l' == ExceptionLabel {
      StagedNotException(s, l);
    } else if PromptFor(l, s) == PromptFor(l', s') {
      StagedInjective(s, l, s', l');
    }
  }

  /** The stage lists for which the catalog has its intended size. */
  predicate WellFormedStages(stages: seq<string>)
  {
    NoDup(stages) && forall s :: s in stages ==> IsWord(s) && !(s + " " <= ExceptionLabel)
  }

  /** The prompts of the first label are disjoint from those of the remaining labels. */
  lemma HeadTailDisjoint(labels: seq<string>, stages: seq<string>)
    requires |labels| > 0 && labels[0] !in labels[1..] && WellFormedStages(stages)
    ensures (set p | p in LabelPrompts(labels[0], stages)) !! Catalog(labels[1..], stages)
  {
    forall p | p in LabelPrompts(labels[0], stages) && p in Generate(labels[1..], stages)
      ensures false
    {
      LabelPromptsMembership(labels[0], stages, p);
      GenerateMembership(labels[1..], stages, p);
      var s :| s in stages && s != "" && p == PromptFor(labels[0], s);
      var l', s' :| l' in labels[1..] && s' in stages && s' != "" && p == PromptFor(l', s');
      DistinctLabelsDistinctPrompts(labels[0], s, l', s');
    }
  }

  /** How many distinct prompts one label contributes. */
  lemma LabelPromptsSize(pest: string, stages: seq<string>)
    requires WellFormedStages(stages)
    ensures |set p | p in LabelPrompts(pest, stages)| ==
            if pest == ExceptionLabel then (if |stages| > 0 then 1 else 0) else |stages|
  {
    if pest == ExceptionLabel {
      if |stages| > 0 {
        assert stages[0] in stages;
        ExceptionLabelPrompts(stages);
      } else {
        assert LabelPrompts(pest, stages) == [];
      }
    } else {
      OrdinaryLabelPrompts(pest, stages);
      NoDupCard(LabelPrompts(pest, stages));
    }
  }

  lemma NoDupTail<T>(s: seq<T>)
    requires |s| > 0 && NoDup(s)
    ensures NoDup(s[1..]) && s[0] !in s[1..]
  {
    forall i, j | 0 <= i < j < |s[1..]| ensures s[1..][i] != s[1..][j] {
      assert s[1..][i] == s[i + 1] && s[1..][j] == s[j + 1];
    }
  }

  lemma CatalogCons(labels: seq<string>, stages: seq<string>)
    requires |labels| > 0
    ensures Catalog(labels, stages) ==
            (set p | p in LabelPrompts(labels[0], stages)) + Catalog(labels[1..], stages)
  {
  }

  /**
   For distinct labels and distinct single-word stages, the catalog holds one
   prompt per (label, stage) pair, except that the stage variants of the
   exception label collapse into a single prompt.
   */
  lemma {:induction false} CatalogSize(labels: seq<string>, stages: seq<string>)
    requires NoDup(labels) && WellFormedStages(stages)
    ensures |Catalog(labels, stages)| ==
            |labels| * |stages| - (if ExceptionLabel in labels && |stages| > 0 then |stages| - 1 else 0)
    decreases |labels|
  {
    if |labels| == 0 {
      assert Catalog(labels, stages) == {};
    } else {
      var h := labels[0];
      var t := labels[1..];
      var head := set p | p in LabelPrompts(h, stages);
      var tail := Catalog(t, stages);
      CatalogCons(labels, stages);
      NoDupTail(labels);
      CatalogSize(t, stages);
      HeadTailDisjoint(labels, stages);
      LabelPromptsSize(h, stages);
      DisjointUnionSize(head, tail);
      assert ExceptionLabel in labels <==> h == ExceptionLabel || ExceptionLabel in t;
      var hs := |head|;
      var ts := |tail|;
      var n := |stages|;
      assert |Catalog(labels, stages)| == hs + ts;
      SizeArithmetic(|labels|, |t|, n, hs, ts, h == ExceptionLabel, ExceptionLabel in t);
    }
  }

  lemma DisjointUnionSize<T>(a: set<T>, b: set<T>)
    requires a !! b
    ensures |a + b| == |a| + |b|
  {
  }

  lemma SizeArithmetic(m: nat, k: nat, n: nat, headSize: int, tailSize: int, headExc: bool, tailExc: bool)
    requires m == k + 1 && !(headExc && tailExc)
    requires headSize == if headExc then (if n > 0 then 1 else 0) else n
    requires tailSize == k * n - (if tailExc && n > 0 then n - 1 else 0)
    ensures headSize + tailSize == m * n - (if (headExc || tailExc) && n > 0 then n - 1 else 0)
  {
    assert m * n == n + k * n;
  }

  /** The configured lists give 15 * 4 - 3 = 57 distinct prompts. */
  lemma DefaultCatalogSize()
    ensures |DefaultCatalog()| == 57
  {
    assert ExceptionLabel == Labels[1];
    LabelsDistinct();
    StagesAreWords();
    CatalogSize(Labels, Stages);
  }

  lemma LabelsDistinct()
    ensures NoDup(Labels)
  {
  }

  lemma StagesAreWords()
    ensures NoDup(Stages)
    ensures forall s :: s in Stages ==> IsWord(s) && !(s + " " <= ExceptionLabel)
  {
    forall s | s in Stages ensures IsWord(s) && !(s + " " <= ExceptionLabel) {
      assert s == "adult" || s == "larva" || s == "pupa" || s == "egg";
      assert s[0] != ExceptionLabel[0];
    }
  }
}

=== FILE: classification.dfy ===
/**
 The per-image loop of zeroshot.py's main block: every image file of every
 class folder is classified, the predicted prompt is normalised to a class
 name, compared case-insensitively with the folder name, and recorded.
 */
module Classification {
  import opened Wrappers
  import opened Text
  import opened PromptCatalog
  import opened LabelNormalizer
  import NaturalSort

  /** What `classify_image` returns when it does not raise: the arg-max prompt and its probability. */
  datatype Prediction = Prediction(prompt: string, confidence: real)

  /**
   The path `os.path.join(root, file)` handed to `classify_image`: the class
   folder (named by its base name, which keys `folder_files`) and the file's
   base name. The data directory above the folders is the same for every image.
   */
  datatype ImagePath = ImagePath(folder: string, file: string)

  /**
   The classifier. `None` is the `except` branch of `classify_image`, which
   returns `(None, 0.0)`; the model and image I/O behind it are not modelled.
   */
  type Classifier = ImagePath -> Option<Prediction>

  /** The classifier's contract: it picks a prompt of the catalog, with a probability. */
  ghost predicate Honest(classify: Classifier, catalog: set<string>)
  {
    forall f :: classify(f).Some? ==>
      classify(f).value.prompt in catalog && 0.0 <= classify(f).value.confidence <= 1.0
  }

  /** One entry of `class_results[folder_name]`. */
  datatype Record = Record(
    file: string,
    predictedLabel: Option<string>,
    predictedClass: Option<string>,
    confidence: real,
    isCorrect: bool)

  /** `a.lower() == b.lower()`. */
  predicate SameClass(a: string, b: string)
  {
    Lower(a) == Lower(b)
  }

  /** The record for one image (the `if label:` / `else` of the loop body). */
  function MakeRecord(folder: string, file: string, outcome: Option<Prediction>): Record
  {
    if outcome.Some? && outcome.value.prompt != "" then
      var predicted := ExtractClass(outcome.value.prompt);
      Record(file, Some(outcome.value.prompt), Some(predicted), outcome.value.confidence,
             SameClass(predicted, folder))
    else
      Record(file, None, None, 0.0, false)
  }

  /** A class folder: its name and its files, in the order the run visits them. */
  datatype Folder = Folder(name: string, files: seq<string>)

  /**
   One entry of `get_image_files`: the folder's files as `os.walk` lists them,
   sorted by `natural_sort_key`. Every file is kept, and none comes after a
   file with a greater key.
   */
  function GetImageFiles(name: string, listing: seq<string>): (f: Folder)
    ensures f.name == name
    ensures multiset(f.files) == multiset(listing)
    ensures forall i, j :: 0 <= i < j < |f.files| ==> !NaturalSort.NameLess(f.files[j], f.files[i])
  {
    Folder(name, NaturalSort.SortFiles(listing))
  }

  /** `class_results[name]`: the records of one folder. */
  datatype ClassResults = ClassResults(name: string, records: seq<Record>)

  /** The inner loop: one record appended per file, in file order. */
  function ClassifyFolder(folder: Folder, classify: Classifier): ClassResults
  {
    ClassResults(folder.name,
      seq(|folder.files|, i requires 0 <= i < |folder.files| =>
        MakeRecord(folder.name, folder.files[i], classify(ImagePath(folder.name, folder.files[i])))))
  }

  /** The outer loop over `folder_files.items()`. */
  function ClassifyAll(folders: seq<Folder>, classify: Classifier): seq<ClassResults>
  {
    seq(|folders|, k requires 0 <= k < |folders| => ClassifyFolder(folders[k], classify))
  }

  /** `total_files` as first computed (line 219): the number of image files. */
  function FileCount(folders: seq<Folder>): nat
  {
    if |folders| == 0 then 0 else |folders[0].files| + FileCount(folders[1..])
  }

  /** The number of records held in `class_results`. */
  function RecordCount(classes: seq<ClassResults>): nat
  {
    if |classes| == 0 then 0 else |classes[0].records| + RecordCount(classes[1..])
  }

  // ---------------------------------------------------------------------------
  // Record construction

  /** A failed classification (or an empty prompt, which is falsy) gives the failure record. */
  lemma FailureRecord(folder: string, file: string, outcome: Option<Prediction>)
    requires outcome.None? || outcome.value.prompt == ""
    ensures MakeRecord(folder, file, outcome) == Record(file, None, None, 0.0, false)
  {
  }

  /**
   A successful classification keeps the prompt and its confidence, and is
   correct exactly when the extracted class equals the folder name up to case.
   */
  lemma SuccessRecord(folder: string, file: string, p: Prediction)
    requires p.prompt != ""
    ensures var r := MakeRecord(folder, file, Some(p));
      && r.predictedLabel == Some(p.prompt)
      && r.predictedClass == Some(ExtractClass(p.prompt))
      && r.confidence == p.confidence
      && (r.isCorrect <==> Lower(ExtractClass(p.prompt)) == Lower(folder))
  {
  }

  /** A record counts as correct only if a class was predicted. */
  lemma CorrectImpliesPredicted(folder: string, file: string, outcome: Option<Prediction>)
    ensures MakeRecord(folder, file, outcome).isCorrect ==> MakeRecord(folder, file, outcome).predictedClass.Some?
  {
  }

  /**
   With an honest classifier over a recoverable catalog (the configured one is,
   by `DefaultRecoverable`), every predicted class is one of the labels, and
   confidences lie in [0, 1].
   */
  lemma PredictionsAreLabels(labels: seq<string>, stages: seq<string>, folder: string, file: string, classify: Classifier)
    requires Recoverable(labels, stages) && Honest(classify, Catalog(labels, stages))
    ensures var r := MakeRecord(folder, file, classify(ImagePath(folder, file)));
      && (r.predictedClass.Some? ==> r.predictedClass.value in labels)
      && 0.0 <= r.confidence <= 1.0
  {
    var outcome := classify(ImagePath(folder, file));
    if outcome.Some? && outcome.value.prompt != "" {
      CatalogPromptsGiveLabels(labels, stages, outcome.value.prompt);
      SuccessRecord(folder, file, outcome.value);
    } else {
      FailureRecord(folder, file, outcome);
    }
  }

  /** An image judged correct sits in a folder named like one of the labels, up to case. */
  lemma CorrectMeansFolderIsLabel(labels: seq<string>, stages: seq<string>, folder: string, file: string, classify: Classifier)
    requires Recoverable(labels, stages) && Honest(classify, Catalog(labels, stages))
    requires MakeRecord(folder, file, classify(ImagePath(folder, file))).isCorrect
    ensures exists l :: l in labels && Lower(l) == Lower(folder)
  {
    PredictionsAreLabels(labels, stages, folder, file, classify);
  }

  // ---------------------------------------------------------------------------
  // The loops

  /** Exactly one record per image, in file order. */
  lemma ClassifyFolderOnePerFile(folder: Folder, classify: Classifier)
    ensures var c := ClassifyFolder(folder, classify);
      && c.name == folder.name
      && |c.records| == |folder.files|
      && forall i :: 0 <= i < |folder.files| ==>
           c.records[i].file == folder.files[i]
           && c.records[i] == MakeRecord(folder.name, folder.files[i], classify(ImagePath(folder.name, folder.files[i])))
  {
    var c := ClassifyFolder(folder, classify);
    forall i | 0 <= i < |folder.files|
      ensures c.records[i] == MakeRecord(folder.name, folder.files[i], classify(ImagePath(folder.name, folder.files[i])))
      ensures c.records[i].file == folder.files[i]
    {
    }
  }

  /**
   The records of a listed folder: one per file of the listing, in natural
   order of their file names.
   */
  lemma RecordsInNaturalOrder(name: string, listing: seq<string>, classify: Classifier)
    ensures var c := ClassifyFolder(GetImageFiles(name, listing), classify);
      && |c.records| == |listing|
      && multiset(seq(|c.records|, i requires 0 <= i < |c.records| => c.records[i].file)) == multiset(listing)
      && forall i, j :: 0 <= i < j < |c.records| ==> !NaturalSort.NameLess(c.records[j].file, c.records[i].file)
  {
    var f := GetImageFiles(name, listing);
    ClassifyFolderOnePerFile(f, classify);
    var c := ClassifyFolder(f, classify);
    assert seq(|c.records|, i requires 0 <= i < |c.records| => c.records[i].file) == f.files;
    assert |f.files| == |multiset(f.files)| == |multiset(listing)| == |listing|;
  }

  /** Records are conserved: the recounted `total_files` (line 301) equals the initial count (line 219). */
  lemma {:induction false} RecordsConserved(folders: seq<Folder>, classify: Classifier)
    ensures RecordCount(ClassifyAll(folders, classify)) == FileCount(folders)
    decreases |folders|
  {
    if |folders| > 0 {
      RecordsConserved(folders[1..], classify);
      assert ClassifyAll(folders, classify)[1..] == ClassifyAll(folders[1..], classify);
    }
  }

  /** Every catalog prompt is non-empty, so an honest classifier never trips the `if label:` test. */
  lemma CatalogPromptsNonEmpty(labels: seq<string>, stages: seq<string>, p: string)
    requires p in Catalog(labels, stages)
    ensures p != ""
  {
    CatalogPromptsStartWithPrefix(labels, stages, p);
  }

  /** With an honest classifier, a record has no predicted class exactly when the classifier failed. */
  lemma FailedExactlyWhenClassifierFailed(labels: seq<string>, stages: seq<string>, folder: string, file: string, classify: Classifier)
    requires Honest(classify, Catalog(labels, stages))
    ensures MakeRecord(folder, file, classify(ImagePath(folder, file))).predictedClass.None? <==> classify(ImagePath(folder, file)).None?
  {
    var outcome := classify(ImagePath(folder, file));
    if outcome.Some? {
      CatalogPromptsNonEmpty(labels, stages, outcome.value.prompt);
      SuccessRecord(folder, file, outcome.value);
    } else {
      FailureRecord(folder, file, outcome);
    }
  }
}
=== FILE: natural_sort.dfy ===
/**
 `natural_sort_key` of zeroshot.py: a file name is cut by `re.split('([0-9]+)', name)`
 into alternating text and digit runs; digit runs become integers, text is
 lower-cased; the resulting lists are compared lexicographically, so "img2"
 sorts before "img10" and "IMG7" ties with "img007".
 */
module NaturalSort {
  import opened Text
  import StableSort

  /** One element of a sort key: lower-cased text, or an integer parsed from a digit run. */
  datatype Segment = Word(text: string) | Num(value: nat)

  /** Length of the longest prefix of `s` without digits. */
  function NonDigitRun(s: string): (n: nat)
    ensures n <= |s|
    ensures forall i :: 0 <= i < n ==> !IsDigit(s[i])
    ensures n < |s| ==> IsDigit(s[n])
  {
    if |s| == 0 || IsDigit(s[0]) then 0 else 1 + NonDigitRun(s[1..])
  }

  /** Length of the longest prefix of `s` made of digits. */
  function DigitRun(s: string): (n: nat)
    ensures n <= |s|
    ensures forall i :: 0 <= i < n ==> IsDigit(s[i])
    ensures n < |s| ==> !IsDigit(s[n])
  {
    if |s| == 0 || !IsDigit(s[0]) then 0 else 1 + DigitRun(s[1..])
  }

  predicate AllDigits(t: string)
  {
    forall i :: 0 <= i < |t| ==> IsDigit(t[i])
  }

  predicate NoDigits(t: string)
  {
    forall i :: 0 <= i < |t| ==> !IsDigit(t[i])
  }

  /**
   The shape of `re.split('([0-9]+)', s)`: an odd number of parts, text parts
   (even positions) free of digits and non-empty between two digit runs, digit
   parts (odd positions) non-empty and made of digits only.
   */
  predicate IsDigitSplit(parts: seq<string>)
  {
    && |parts| % 2 == 1
    && (forall i :: 0 <= i < |parts| && i % 2 == 0 ==> NoDigits(parts[i]))
    && (forall i :: 0 < i < |parts| - 1 && i % 2 == 0 ==> parts[i] != "")
    && (forall i :: 0 <= i < |parts| && i % 2 == 1 ==> parts[i] != "" && AllDigits(parts[i]))
  }

  function Concat(parts: seq<string>): string
  {
    if |parts| == 0 then "" else parts[0] + Concat(parts[1..])
  }

  /** `re.split('([0-9]+)', s)`. */
  function SplitDigits(s: string): (parts: seq<string>)
    decreases |s|
  {
    var t := NonDigitRun(s);
    if t == |s| then [s]
    else
      var rest := s[t..];
      var d := DigitRun(rest);
      [s[..t], rest[..d]] + SplitDigits(rest[d..])
  }

  /** Prefixing a text run and a digit run keeps the alternating shape. */
  lemma ConsDigitSplit(a: string, d: string, tail: seq<string>)
    requires NoDigits(a) && d != "" && AllDigits(d) && IsDigitSplit(tail)
    requires tail[0] != "" || |tail| == 1
    ensures IsDigitSplit([a, d] + tail)
  {
    var parts := [a, d] + tail;
    forall i | 2 <= i < |parts| ensures parts[i] == tail[i - 2] { }
  }

  /** The split has the alternating shape. */
  lemma {:induction false} SplitDigitsShape(s: string)
    ensures IsDigitSplit(SplitDigits(s))
    decreases |s|
  {
    var t := NonDigitRun(s);
    if t < |s| {
      var rest := s[t..];
      var d := DigitRun(rest);
      assert d >= 1 by { assert rest[0] == s[t]; }
      var tail := SplitDigits(rest[d..]);
      SplitDigitsShape(rest[d..]);
      if d < |rest| {
        assert !IsDigit(rest[d..][0]);
        SplitDigitsHead(rest[d..]);
      }
      ConsDigitSplit(s[..t], rest[..d], tail);
    }
  }

  /** The first part of the split is the leading text run. */
  lemma SplitDigitsHead(s: string)
    ensures SplitDigits(s)[0] == s[..NonDigitRun(s)]
  {
  }

  /** Nothing is lost by the split: its parts concatenate back to the file name. */
  lemma {:induction false} SplitDigitsConcat(s: string)
    ensures Concat(SplitDigits(s)) == s
    decreases |s|
  {
    var t := NonDigitRun(s);
    if t == |s| {
      assert Concat([s]) == s + Concat([]);
    } else {
      var rest := s[t..];
      var d := DigitRun(rest);
      assert d >= 1 by { assert rest[0] == s[t]; }
      var tail := SplitDigits(rest[d..]);
      assert SplitDigits(s) == [s[..t], rest[..d]] + tail;
      SplitDigitsConcat(rest[d..]);
      ConcatPair(s[..t], rest[..d], tail);
      assert rest == rest[..d] + rest[d..];
      assert s == s[..t] + rest;
    }
  }

  /** Concatenating two leading parts and the rest. */
  lemma ConcatPair(a: string, b: string, tail: seq<string>)
    ensures Concat([a, b] + tail) == a + (b + Concat(tail))
  {
    var parts := [a, b] + tail;
    assert parts[1..] == [b] + tail;
    assert parts[1..][1..] == tail;
  }

  lemma {:induction false} NonDigitRunOf(a: string, b: string)
    requires NoDigits(a) && (b == "" || IsDigit(b[0]))
    ensures NonDigitRun(a + b) == |a|
    decreases |a|
  {
    if |a| > 0 {
      NonDigitRunOf(a[1..], b);
      assert (a + b)[1..] == a[1..] + b;
    } else {
      assert a + b == b;
    }
  }

  lemma {:induction false} DigitRunOf(a: string, b: string)
    requires AllDigits(a) && (b == "" || !IsDigit(b[0]))
    ensures DigitRun(a + b) == |a|
    decreases |a|
  {
    if |a| > 0 {
      DigitRunOf(a[1..], b);
      assert (a + b)[1..] == a[1..] + b;
    } else {
      assert a + b == b;
    }
  }

  /** The parts after the first text and digit run still have the alternating shape. */
  lemma DigitSplitTail(parts: seq<string>)
    requires IsDigitSplit(parts) && |parts| > 1
    ensures IsDigitSplit(parts[2..])
    ensures parts[2..][0] != "" || |parts| == 3
  {
    var tail := parts[2..];
    forall i | 0 <= i < |tail| ensures tail[i] == parts[i + 2] { }
  }

  /**
   The split is determined by its shape: any alternating sequence of text and
   digit runs that concatenates to `s` is `re.split('([0-9]+)', s)`.
   */
  lemma {:induction false} SplitDigitsUnique(s: string, parts: seq<string>)
    requires IsDigitSplit(parts) && Concat(parts) == s
    ensures SplitDigits(s) == parts
    decreases |s|
  {
    var p0 := parts[0];
    if |parts| == 1 {
      assert parts[1..] == [];
      assert s == p0 + "";
      assert p0 + "" == p0;
      SplitDigitsSingle(p0);
    } else {
      var p1 := parts[1];
      var tail := parts[2..];
      assert parts == [p0, p1] + tail;
      ConcatPair(p0, p1, tail);
      DigitSplitTail(parts);
      ConcatHead(tail);
      SplitDigitsUnique(Concat(tail), tail);
      SplitDigitsStep(p0, p1, Concat(tail));
    }
  }

  /** A name without digits is a single text part. */
  lemma SplitDigitsSingle(s: string)
    requires NoDigits(s)
    ensures SplitDigits(s) == [s]
  {
    NonDigitRunOf(s, "");
    assert s + "" == s;
  }

  /** The concatenation of an alternating split starts with a non-digit, if anything. */
  lemma ConcatHead(tail: seq<string>)
    requires IsDigitSplit(tail) && (tail[0] != "" || |tail| == 1)
    ensures Concat(tail) == "" || !IsDigit(Concat(tail)[0])
  {
    var u := Concat(tail);
    if tail[0] != "" {
      assert u == tail[0] + Concat(tail[1..]);
      assert u[0] == tail[0][0];
    } else {
      assert tail[1..] == [];
      assert u == "" + Concat([]);
    }
  }

  /** One step of the split: a text run, then a digit run, then text starting with a non-digit. */
  lemma SplitDigitsStep(p0: string, p1: string, u: string)
    requires NoDigits(p0) && p1 != "" && AllDigits(p1) && (u == "" || !IsDigit(u[0]))
    ensures SplitDigits(p0 + (p1 + u)) == [p0, p1] + SplitDigits(u)
  {
    var s := p0 + (p1 + u);
    NonDigitRunOf(p0, p1 + u);
    DigitRunOf(p1, u);
    var rest := s[|p0|..];
    assert rest == p1 + u;
    assert rest[..|p1|] == p1 && rest[|p1|..] == u;
    assert s[..|p0|] == p0;
  }


  function DigitValue(c: char): nat
    requires IsDigit(c)
  {
    c as int - '0' as int
  }

  /** `int(t)` for a string of decimal digits. */
  function Int(t: string): nat
    requires AllDigits(t)
  {
    if |t| == 0 then 0 else 10 * Int(t[..|t| - 1]) + DigitValue(t[|t| - 1])
  }

  /** `str.isdigit()`, on ASCII. */
  predicate IsDigitString(t: string)
  {
    |t| > 0 && AllDigits(t)
  }

  /** `int(text) if text.isdigit() else text.lower()`. */
  function SegmentKey(t: string): Segment
  {
    if IsDigitString(t) then Num(Int(t)) else Word(Lower(t))
  }

  /** `natural_sort_key(filepath)`, for a file name. */
  function NaturalKey(name: string): seq<Segment>
  {
    SegmentKeys(SplitDigits(name))
  }

  /** The key of each part, in order. */
  function SegmentKeys(parts: seq<string>): seq<Segment>
  {
    seq(|parts|, i requires 0 <= i < |parts| => SegmentKey(parts[i]))
  }

  /**
   A key alternates text and numbers: it has odd length, even positions hold
   lower-case text without digits, odd positions hold integers.
   */
  predicate IsKey(key: seq<Segment>)
  {
    && |key| % 2 == 1
    && (forall i :: 0 <= i < |key| && i % 2 == 0 ==>
          key[i].Word? && NoDigits(key[i].text) && Lower(key[i].text) == key[i].text)
    && (forall i :: 0 <= i < |key| && i % 2 == 1 ==> key[i].Num?)
  }

  /** Lower-casing keeps a string free of digits. */
  lemma LowerNoDigits(t: string)
    requires NoDigits(t)
    ensures NoDigits(Lower(t))
  {
  }

  /** Every natural sort key has the alternating shape. */
  lemma NaturalKeyIsKey(name: string)
    ensures IsKey(NaturalKey(name))
  {
    var parts := SplitDigits(name);
    SplitDigitsShape(name);
    var key := NaturalKey(name);
    forall i | 0 <= i < |key| && i % 2 == 0
      ensures key[i].Word? && NoDigits(key[i].text) && Lower(key[i].text) == key[i].text
    {
      assert NoDigits(parts[i]);
      assert !IsDigitString(parts[i]) by {
        if |parts[i]| > 0 { assert !IsDigit(parts[i][0]); }
      }
      LowerNoDigits(parts[i]);
      LowerIdempotent(parts[i]);
    }
  }

  /** Python compares two keys element by element; positions of the same parity hold the same kind. */
  predicate Comparable(a: seq<Segment>, b: seq<Segment>)
  {
    forall i :: 0 <= i < |a| && i < |b| ==> a[i].Word? == b[i].Word?
  }

  /** Two natural sort keys never compare an integer with a string. */
  lemma NaturalKeysComparable(x: string, y: string)
    ensures Comparable(NaturalKey(x), NaturalKey(y))
  {
    NaturalKeyIsKey(x);
    NaturalKeyIsKey(y);
  }

  /** `a < b` for Python strings: lexicographic by code point, a proper prefix first. */
  predicate StrLess(a: string, b: string)
  {
    if |a| == 0 then |b| > 0
    else if |b| == 0 then false
    else if a[0] != b[0] then a[0] < b[0]
    else StrLess(a[1..], b[1..])
  }

  predicate SegmentLess(a: Segment, b: Segment)
    requires a.Word? == b.Word?
  {
    if a.Word? then StrLess(a.text, b.text) else a.value < b.value
  }

  /** `a < b` for two key lists: the first differing position decides, a proper prefix is smaller. */
  predicate KeyLess(a: seq<Segment>, b: seq<Segment>)
    requires Comparable(a, b)
  {
    if |a| == 0 then |b| > 0
    else if |b| == 0 then false
    else if a[0] != b[0] then SegmentLess(a[0], b[0])
    else KeyLess(a[1..], b[1..])
  }

  lemma {:induction false} StrLessAsymmetric(a: string, b: string)
    ensures StrLess(a, b) ==> !StrLess(b, a)
    decreases |a|
  {
    if |a| > 0 && |b| > 0 && a[0] == b[0] {
      StrLessAsymmetric(a[1..], b[1..]);
    }
  }

  /** Python's `<` on keys is asymmetric. */
  lemma {:induction false} KeyLessAsymmetric(a: seq<Segment>, b: seq<Segment>)
    requires Comparable(a, b)
    ensures KeyLess(a, b) ==> !KeyLess(b, a)
    decreases |a|
  {
    if |a| > 0 && |b| > 0 {
      if a[0] == b[0] {
        KeyLessAsymmetric(a[1..], b[1..]);
      } else if a[0].Word? {
        StrLessAsymmetric(a[0].text, b[0].text);
      }
    }
  }

  lemma {:induction false} StrLessTransitive(a: string, b: string, c: string)
    requires StrLess(a, b) && StrLess(b, c)
    ensures StrLess(a, c)
    decreases |a|
  {
    if |a| > 0 && a[0] == b[0] && b[0] == c[0] {
      StrLessTransitive(a[1..], b[1..], c[1..]);
    }
  }

  lemma {:induction false} StrLessTotal(a: string, b: string)
    ensures a == b || StrLess(a, b) || StrLess(b, a)
    decreases |a|
  {
    if |a| > 0 && |b| > 0 && a[0] == b[0] {
      StrLessTotal(a[1..], b[1..]);
      if a[1..] == b[1..] {
        assert a == [a[0]] + a[1..] && b == [b[0]] + b[1..];
      }
    }
  }

  lemma SegmentLessTransitive(a: Segment, b: Segment, c: Segment)
    requires a.Word? == b.Word? == c.Word?
    requires SegmentLess(a, b) && SegmentLess(b, c)
    ensures SegmentLess(a, c)
  {
    if a.Word? {
      StrLessTransitive(a.text, b.text, c.text);
    }
  }

  lemma SegmentLessTotal(a: Segment, b: Segment)
    requires a.Word? == b.Word?
    ensures a == b || SegmentLess(a, b) || SegmentLess(b, a)
  {
    if a.Word? {
      StrLessTotal(a.text, b.text);
    }
  }

  /** Python's `<` on keys is transitive. */
  lemma {:induction false} KeyLessTransitive(a: seq<Segment>, b: seq<Segment>, c: seq<Segment>)
    requires Comparable(a, b) && Comparable(b, c) && Comparable(a, c)
    requires KeyLess(a, b) && KeyLess(b, c)
    ensures KeyLess(a, c)
    decreases |a|
  {
    if |a| > 0 {
      if a[0] != b[0] || b[0] != c[0] {
        if a[0] != b[0] && b[0] != c[0] {
          SegmentLessTransitive(a[0], b[0], c[0]);
        }
        if a[0] == c[0] {
          SegmentLessAsymmetric(a[0], b[0]);
        }
      } else {
        KeyLessTransitive(a[1..], b[1..], c[1..]);
      }
    }
  }

  lemma SegmentLessAsymmetric(a: Segment, b: Segment)
    requires a.Word? == b.Word?
    ensures SegmentLess(a, b) ==> !SegmentLess(b, a)
  {
    if a.Word? {
      StrLessAsymmetric(a.text, b.text);
    }
  }

  /** Python's `<` on keys is total: two different keys are ordered one way or the other. */
  lemma {:induction false} KeyLessTotal(a: seq<Segment>, b: seq<Segment>)
    requires Comparable(a, b)
    ensures a == b || KeyLess(a, b) || KeyLess(b, a)
    decreases |a|
  {
    if |a| > 0 && |b| > 0 {
      if a[0] == b[0] {
        KeyLessTotal(a[1..], b[1..]);
        if a[1..] == b[1..] {
          assert a == [a[0]] + a[1..] && b == [b[0]] + b[1..];
        }
      } else {
        SegmentLessTotal(a[0], b[0]);
      }
    }
  }

  /** The order `list.sort(key=natural_sort_key)` uses on file names. */
  predicate NameLess(x: string, y: string)
  {
    NaturalKeysComparable(x, y);
    KeyLess(NaturalKey(x), NaturalKey(y))
  }

  lemma NameLessAsymmetric()
    ensures StableSort.Asymmetric(NameLess)
  {
    forall x, y | NameLess(x, y) ensures !NameLess(y, x) {
      NaturalKeysComparable(x, y);
      NaturalKeysComparable(y, x);
      KeyLessAsymmetric(NaturalKey(x), NaturalKey(y));
    }
  }

  /** A name whose key is not below another's comes after it: the keys are totally ordered. */
  lemma NameNotLessTransitive()
    ensures StableSort.NotLessTransitive(NameLess)
  {
    forall x, y, z | !NameLess(y, x) && !NameLess(z, y) ensures !NameLess(z, x) {
      var kx, ky, kz := NaturalKey(x), NaturalKey(y), NaturalKey(z);
      NaturalKeysComparable(x, y);
      NaturalKeysComparable(y, z);
      NaturalKeysComparable(x, z);
      NaturalKeysComparable(z, x);
      KeyLessTotal(kx, ky);
      KeyLessTotal(ky, kz);
      if kx != ky && ky != kz {
        KeyLessTransitive(kx, ky, kz);
      }
      KeyLessAsymmetric(kx, kz);
    }
  }

  /**
   `files.sort(key=natural_sort_key)`: a permutation of the files in which no
   file comes after one whose key is greater.
   */
  function SortFiles(files: seq<string>): (r: seq<string>)
    ensures multiset(r) == multiset(files)
    ensures forall i, j :: 0 <= i < j < |r| ==> !NameLess(r[j], r[i])
  {
    NameLessAsymmetric();
    NameNotLessTransitive();
    StableSort.SortOrdered(files, NameLess);
    StableSort.Sort(files, NameLess)
  }

  // ---------------------------------------------------------------------------
  // Numeric segments

  function Pow10(n: nat): nat
  {
    if n == 0 then 1 else 10 * Pow10(n - 1)
  }

  /** A digit run of length n stands for a number below 10^n, and at least 10^(n-1) when it has no leading zero. */
  lemma {:induction false} IntBounds(t: string)
    requires AllDigits(t)
    ensures Int(t) < Pow10(|t|)
    ensures |t| > 0 && t[0] != '0' ==> Pow10(|t| - 1) <= Int(t)
    decreases |t|
  {
    if |t| > 0 {
      var init := t[..|t| - 1];
      IntBounds(init);
      if |init| > 0 {
        assert init[0] == t[0];
      }
    }
  }

  lemma {:induction false} Pow10Monotone(m: nat, n: nat)
    requires m <= n
    ensures Pow10(m) <= Pow10(n)
    decreases n
  {
    if m < n {
      Pow10Monotone(m, n - 1);
    }
  }

  /** Numeric order, not text order: a shorter digit run without leading zero is the smaller number ("2" before "10"). */
  lemma ShorterRunIsSmaller(a: string, b: string)
    requires IsDigitString(a) && IsDigitString(b) && b[0] != '0'
    requires |a| < |b|
    ensures SegmentLess(SegmentKey(a), SegmentKey(b))
  {
    IntBounds(a);
    IntBounds(b);
    Pow10Monotone(|a|, |b| - 1);
  }

  /** Leading zeros do not change the number ("007" and "7" give equal segments). */
  lemma {:induction false} LeadingZeroIgnored(t: string)
    requires AllDigits(t)
    ensures AllDigits("0" + t) && Int("0" + t) == Int(t)
    decreases |t|
  {
    if |t| > 0 {
      var init := t[..|t| - 1];
      LeadingZeroIgnored(init);
      assert ("0" + t)[..|t|] == "0" + init;
    }
  }

  /** At the segment level, a zero-padded run ties with the unpadded one. */
  lemma PaddedRunTies(t: string)
    requires IsDigitString(t)
    ensures SegmentKey("0" + t) == SegmentKey(t)
  {
    LeadingZeroIgnored(t);
  }

  // ---------------------------------------------------------------------------
  // File names with one number

  /** The split of a name with one digit run between two texts. */
  lemma OneNumberSplit(p: string, a: string, q: string)
    requires NoDigits(p) && NoDigits(q) && IsDigitString(a)
    ensures SplitDigits(p + a + q) == [p, a, q]
    ensures NaturalKey(p + a + q) == [Word(Lower(p)), Num(Int(a)), Word(Lower(q))]
  {
    ConcatThree(p, a, q);
    SplitDigitsUnique(p + a + q, [p, a, q]);
    OneNumberKey(p, a, q);
  }

  lemma ConcatThree(p: string, a: string, q: string)
    ensures Concat([p, a, q]) == p + a + q
  {
    ConcatPair(p, a, [q]);
    assert [q][1..] == [];
    assert Concat([q]) == q + Concat([]);
    assert q + "" == q;
  }

  /** The key of a name whose split is a text, a digit run and a text. */
  lemma OneNumberKey(p: string, a: string, q: string)
    requires NoDigits(p) && NoDigits(q) && IsDigitString(a)
    requires SplitDigits(p + a + q) == [p, a, q]
    ensures NaturalKey(p + a + q) == [Word(Lower(p)), Num(Int(a)), Word(Lower(q))]
  {
    assert SegmentKey(p) == Word(Lower(p)) by { if |p| > 0 { assert !IsDigit(p[0]); } }
    assert SegmentKey(q) == Word(Lower(q)) by { if |q| > 0 { assert !IsDigit(q[0]); } }
    ThreeSegmentKeys(p, a, q);
  }

  lemma ThreeSegmentKeys(x: string, y: string, z: string)
    ensures SegmentKeys([x, y, z]) == [SegmentKey(x), SegmentKey(y), SegmentKey(z)]
  {
  }

  /** Between equal surroundings the smaller number sorts first, whatever the digit strings look like. */
  lemma NumericOrder(p: string, a: string, b: string, q: string)
    requires NoDigits(p) && NoDigits(q) && IsDigitString(a) && IsDigitString(b)
    requires Int(a) < Int(b)
    ensures NameLess(p + a + q, p + b + q)
  {
    OneNumberSplit(p, a, q);
    OneNumberSplit(p, b, q);
    var ka := NaturalKey(p + a + q);
    var kb := NaturalKey(p + b + q);
    NaturalKeysComparable(p + a + q, p + b + q);
    assert ka[1..] == [Num(Int(a)), Word(Lower(q))];
    assert kb[1..] == [Num(Int(b)), Word(Lower(q))];
  }

  /** "img2.jpg" sorts before "img10.jpg". */
  lemma TwoBeforeTen(p: string, q: string)
    requires NoDigits(p) && NoDigits(q)
    ensures NameLess(p + "2" + q, p + "10" + q)
  {
    assert Int("10") == 10 by {
      assert "10"[..1] == "1";
      assert "1"[..0] == "";
    }
    NumericOrder(p, "2", "10", q);
  }

  // ---------------------------------------------------------------------------
  // Keys ignore case and zero padding, in every name

  /** Lower-casing distributes over concatenation. */
  lemma LowerConcat(a: string, b: string)
    ensures Lower(a + b) == Lower(a) + Lower(b)
  {
    assert forall i :: 0 <= i < |a| ==> Lower(a + b)[i] == Lower(a)[i];
    assert forall i :: |a| <= i < |a + b| ==> Lower(a + b)[i] == Lower(b)[i - |a|];
  }

  /** Every part lower-cased. */
  function LowerAll(parts: seq<string>): seq<string>
  {
    seq(|parts|, i requires 0 <= i < |parts| => Lower(parts[i]))
  }

  lemma {:induction false} ConcatLowerAll(parts: seq<string>)
    ensures Concat(LowerAll(parts)) == Lower(Concat(parts))
    decreases |parts|
  {
    if |parts| == 0 {
      assert Lower("") == "";
    } else {
      assert LowerAll(parts)[1..] == LowerAll(parts[1..]);
      ConcatLowerAll(parts[1..]);
      LowerConcat(parts[0], Concat(parts[1..]));
    }
  }

  /** Lower-casing keeps the alternating shape: digits stay digits and nothing else becomes one. */
  lemma LowerAllDigitSplit(parts: seq<string>)
    requires IsDigitSplit(parts)
    ensures IsDigitSplit(LowerAll(parts))
  {
    var low := LowerAll(parts);
    forall i | 0 <= i < |low| && i % 2 == 0 ensures NoDigits(low[i]) {
      LowerNoDigits(parts[i]);
    }
  }

  /** The split of a lower-cased name is the lower-cased split. */
  lemma SplitDigitsOfLower(name: string)
    ensures SplitDigits(Lower(name)) == LowerAll(SplitDigits(name))
  {
    var parts := SplitDigits(name);
    SplitDigitsShape(name);
    SplitDigitsConcat(name);
    LowerAllDigitSplit(parts);
    ConcatLowerAll(parts);
    SplitDigitsUnique(Lower(name), LowerAll(parts));
  }

  /** A part and its lower-cased form have the same key. */
  lemma SegmentKeyOfLower(t: string)
    ensures SegmentKey(Lower(t)) == SegmentKey(t)
  {
    if IsDigitString(t) {
      assert Lower(t) == t;
    } else {
      LowerIdempotent(t);
    }
  }

  /** A name and its lower-cased form have the same key. */
  lemma NaturalKeyOfLower(name: string)
    ensures NaturalKey(Lower(name)) == NaturalKey(name)
  {
    var parts := SplitDigits(name);
    SplitDigitsOfLower(name);
    forall i | 0 <= i < |parts| ensures SegmentKey(LowerAll(parts)[i]) == SegmentKey(parts[i]) {
      SegmentKeyOfLower(parts[i]);
    }
  }

  /** Text is compared without case: any two names equal up to case have equal keys ("IMG7.JPG" and "img7.jpg"). */
  lemma CaseIgnored(x: string, y: string)
    requires Lower(x) == Lower(y)
    ensures NaturalKey(x) == NaturalKey(y)
  {
    NaturalKeyOfLower(x);
    NaturalKeyOfLower(y);
  }

  /** `k` zeros. */
  function Zeros(k: nat): string
  {
    seq(k, i => '0')
  }

  /** Any number of leading zeros leaves a digit run's value unchanged. */
  lemma {:induction false} ZerosIgnored(k: nat, t: string)
    requires AllDigits(t)
    ensures AllDigits(Zeros(k) + t) && Int(Zeros(k) + t) == Int(t)
    decreases k
  {
    if k == 0 {
      assert Zeros(k) + t == t;
    } else {
      ZerosIgnored(k - 1, t);
      assert Zeros(k) + t == "0" + (Zeros(k - 1) + t);
      LeadingZeroIgnored(Zeros(k - 1) + t);
    }
  }

  /** The parts with `pads[i]` zeros put in front of every digit run `parts[i]`. */
  function PadRuns(parts: seq<string>, pads: seq<nat>): seq<string>
    requires |pads| == |parts|
  {
    seq(|parts|, i requires 0 <= i < |parts| => if i % 2 == 1 then Zeros(pads[i]) + parts[i] else parts[i])
  }

  lemma PadRunsDigitSplit(parts: seq<string>, pads: seq<nat>)
    requires IsDigitSplit(parts) && |pads| == |parts|
    ensures IsDigitSplit(PadRuns(parts, pads))
  {
    var padded := PadRuns(parts, pads);
    forall i | 0 <= i < |padded| && i % 2 == 1 ensures padded[i] != "" && AllDigits(padded[i]) {
      ZerosIgnored(pads[i], parts[i]);
    }
  }

  /**
   Zero padding is ignored: padding any of a name's numbers with any number of
   zeros gives the same key ("img007_02.jpg" and "img7_2.jpg").
   */
  lemma PaddedNamesTie(name: string, pads: seq<nat>)
    requires |pads| == |SplitDigits(name)|
    ensures NaturalKey(Concat(PadRuns(SplitDigits(name), pads))) == NaturalKey(name)
  {
    var parts := SplitDigits(name);
    var padded := PadRuns(parts, pads);
    SplitDigitsShape(name);
    PadRunsDigitSplit(parts, pads);
    SplitDigitsUnique(Concat(padded), padded);
    PadRunsKeys(parts, pads);
  }

  /** Padding the digit runs of a split leaves the key of every part unchanged. */
  lemma PadRunsKeys(parts: seq<string>, pads: seq<nat>)
    requires IsDigitSplit(parts) && |pads| == |parts|
    ensures SegmentKeys(PadRuns(parts, pads)) == SegmentKeys(parts)
  {
    var padded := PadRuns(parts, pads);
    forall i | 0 <= i < |parts| ensures SegmentKey(padded[i]) == SegmentKey(parts[i]) {
      if i % 2 == 1 {
        ZerosIgnored(pads[i], parts[i]);
      }
    }
  }
}
=== FILE: normalize.dfy ===
/**
 `extract_class_from_label` of zeroshot.py: recovers the class name from a
 predicted prompt by taking the text after the first "a photo of " (up to the
 next one) and stripping at most one leading growth stage.
 */
module LabelNormalizer {
  import opened Wrappers
  import opened Text
  import opened PromptCatalog

  /** The guard of the outer `if`: note the missing trailing blank. */
  const Marker: string := "a photo of"

  /** `growth_stages`, checked in this order; the first match is stripped and the loop breaks. */
  const GrowthStages: seq<string> := ["adult ", "larva ", "pupa ", "egg "]

  /** The stage loop with its `break`. */
  function StripStage(part: string, stages: seq<string>): (r: string)
    ensures (forall k :: 0 <= k < |stages| ==> !(stages[k] <= part)) ==> r == part
    ensures (exists k :: 0 <= k < |stages| && stages[k] <= part) ==>
            exists k :: 0 <= k < |stages| && stages[k] <= part && r == part[|stages[k]|..]
                     && forall k' :: 0 <= k' < k ==> !(stages[k'] <= part)
    decreases |stages|
  {
    if |stages| == 0 then part
    else if stages[0] <= part then part[|stages[0]|..]
    else
      var r := StripStage(part, stages[1..]);
      assert forall k :: 1 <= k < |stages| ==> stages[k] == stages[1..][k - 1];
      r
  }

  /** `extract_class_from_label(label)`. */
  function ExtractClass(prompt: string): string
  {
    if Contains(prompt, Marker) then
      var parts := Split(prompt, PhotoPrefix);
      if |parts| > 1 then StripStage(parts[1], GrowthStages) else prompt
    else prompt
  }

  /** The text between the first "a photo of " and the next one (or the end). */
  function PromptPart(prompt: string): string
    requires Contains(prompt, PhotoPrefix)
  {
    var i := IndexOf(prompt, PhotoPrefix).value;
    var rest := prompt[i + |PhotoPrefix|..];
    match IndexOf(rest, PhotoPrefix)
    case None => rest
    case Some(j) => rest[..j]
  }

  /** A prompt without "a photo of " comes back unchanged. */
  lemma ExtractWithoutPrefix(prompt: string)
    requires !Contains(prompt, PhotoPrefix)
    ensures ExtractClass(prompt) == prompt
  {
  }

  /** The marker is a prefix of the separator, so it occurs wherever the separator does. */
  lemma MarkerOccurs(prompt: string)
    requires Contains(prompt, PhotoPrefix)
    ensures Contains(prompt, Marker)
  {
    var i := IndexOf(prompt, PhotoPrefix).value;
    assert prompt[i..i + |Marker|] == prompt[i..i + |PhotoPrefix|][..|Marker|];
    assert OccursAt(prompt, Marker, i);
    IndexOfFirst(prompt, Marker);
  }

  /**
   A prompt holding "a photo of " yields the text between its first and second
   occurrence (or the end), with at most one leading growth stage removed.
   */
  lemma ExtractTakesPromptPart(prompt: string)
    requires Contains(prompt, PhotoPrefix)
    ensures ExtractClass(prompt) == StripStage(PromptPart(prompt), GrowthStages)
  {
    MarkerOccurs(prompt);
    var i := IndexOf(prompt, PhotoPrefix).value;
    var rest := prompt[i + |PhotoPrefix|..];
    var parts := Split(prompt, PhotoPrefix);
    assert parts == [prompt[..i]] + Split(rest, PhotoPrefix);
    assert parts[1] == Split(rest, PhotoPrefix)[0];
    match IndexOf(rest, PhotoPrefix)
    case None =>
    case Some(j) =>
  }

  /** The growth stages are prefix-free: none is a prefix of another. */
  lemma GrowthStagesPrefixFree()
    ensures forall a, b :: 0 <= a < |GrowthStages| && 0 <= b < |GrowthStages| && a != b ==>
              !(GrowthStages[a] <= GrowthStages[b])
  {
    assert forall a :: 0 <= a < |GrowthStages| ==> GrowthStages[a][0] == "alpe"[a];
  }

  /** Two prefixes of one string are prefixes of each other. */
  lemma PrefixesOfOneString(a: string, b: string, s: string)
    ensures a <= s && b <= s ==> a <= b || b <= a
  {
    if a <= s && b <= s && |a| <= |b| {
      assert a == s[..|a|] == b[..|a|];
    }
  }

  /** Prepending a growth stage is undone by the stage loop, which strips exactly that stage. */
  lemma StripPrependedStage(g: string, rest: string)
    requires g in GrowthStages
    ensures StripStage(g + rest, GrowthStages) == rest
  {
    var part := g + rest;
    GrowthStagesPrefixFree();
    assert g <= part;
    var k :| 0 <= k < |GrowthStages| && GrowthStages[k] <= part && StripStage(part, GrowthStages) == part[|GrowthStages[k]|..];
    var b :| 0 <= b < |GrowthStages| && GrowthStages[b] == g;
    PrefixesOfOneString(GrowthStages[k], g, part);
    assert k == b;
  }

  /**
   Round trip for a staged prompt: "a photo of " + stage + " " + L gives back L,
   provided "a photo of " does not occur again after the prefix. Only one stage
   is stripped, so L may itself start with a stage word.
   */
  lemma ExtractStaged(g: string, l: string)
    requires g in GrowthStages && !Contains(g + l, PhotoPrefix)
    ensures ExtractClass(PhotoPrefix + g + l) == l
  {
    assert PhotoPrefix + g + l == PhotoPrefix + (g + l);
    ExtractOfPrefixed(g + l);
    StripPrependedStage(g, l);
  }

  /** Round trip for the stage-less prompt. */
  lemma ExtractUnstaged(l: string)
    requires !Contains(l, PhotoPrefix)
    requires forall g :: g in GrowthStages ==> !(g <= l)
    ensures ExtractClass(PhotoPrefix + l) == l
  {
    ExtractOfPrefixed(l);
    assert forall k :: 0 <= k < |GrowthStages| ==> GrowthStages[k] in GrowthStages;
  }

  /** After a single leading "a photo of ", extraction strips a stage from the rest. */
  lemma ExtractOfPrefixed(rest: string)
    requires !Contains(rest, PhotoPrefix)
    ensures ExtractClass(PhotoPrefix + rest) == StripStage(rest, GrowthStages)
  {
    var prompt := PhotoPrefix + rest;
    assert OccursAt(prompt, Marker, 0);
    assert Contains(prompt, Marker);
    SplitLeadingSeparator(PhotoPrefix, rest);
    SplitWithout(rest, PhotoPrefix);
    assert Split(prompt, PhotoPrefix) == ["", rest];
  }

  // ---------------------------------------------------------------------------
  // Worked instances

  /** 'f' is a letter of the separator, at index 9. */
  lemma LacksF(s: string)
    requires 'f' !in s
    ensures !Contains(s, PhotoPrefix)
  {
    MissingCharNotContained(s, PhotoPrefix, 9);
  }

  /** A staged prompt of the catalog gives its bare label. */
  lemma StagedExample()
    ensures ExtractClass("a photo of adult Aphids") == "Aphids"
  {
    var l := "Aphids";
    assert "a photo of adult Aphids" == PhotoPrefix + "adult " + l;
    LacksF("adult " + l);
    ExtractStaged("adult ", l);
  }

  /** The stage-less exception prompt gives the exception label. */
  lemma UnstagedExample()
    ensures ExtractClass("a photo of Citrus Canker") == "Citrus Canker"
  {
    var l := ExceptionLabel;
    assert "a photo of Citrus Canker" == PhotoPrefix + l;
    ExceptionLabelIsBare();
    ExtractUnstaged(l);
  }

  /** A string that is not a prompt comes back unchanged. */
  lemma ForeignExample()
    ensures ExtractClass("not a matching string") == "not a matching string"
  {
    LacksF("not a matching string");
  }

  /**
   Exactly one stage is stripped: after the first stage, a second one stays in
   the class ("a photo of adult egg Aphids" gives "egg Aphids").
   */
  lemma OnlyOneStageStripped(g: string, h: string, l: string)
    requires g in GrowthStages && h in GrowthStages && !Contains(g + h + l, PhotoPrefix)
    ensures var r := ExtractClass(PhotoPrefix + g + (h + l)); r == h + l && h <= r
  {
    assert g + h + l == g + (h + l);
    ExtractStaged(g, h + l);
  }

  /** In "larva photo of X", the separator occurs first at index 4, after "larv". */
  lemma SecondOccurrence()
    ensures IndexOf("larva photo of X", PhotoPrefix) == Some(4)
  {
    var rest := "larva photo of X";
    assert rest[4..15] == PhotoPrefix;
    assert OccursAt(rest, PhotoPrefix, 4);
    forall j: nat | j < 4 ensures !OccursAt(rest, PhotoPrefix, j) {
      assert rest[j..j + |PhotoPrefix|][0] == rest[j];
      assert rest[j..j + |PhotoPrefix|][1] == rest[j + 1];
    }
    IndexOfAt(rest, PhotoPrefix, 4);
  }

  /** No growth stage is a prefix of "larv". */
  lemma NoStageOnLarv()
    ensures StripStage("larv", GrowthStages) == "larv"
  {
    var part := "larv";
    forall k | 0 <= k < |GrowthStages| ensures !(GrowthStages[k] <= part) {
      assert |GrowthStages[k]| > 4 || GrowthStages[k][0] != 'l';
    }
  }

  /**
   A label free of "a photo of " is not enough for the round trip: the last
   letter of the stage "larva" and a label starting "photo of " form the
   separator again, and the text is cut there.
   */
  lemma LabelFreeOfPrefixIsNotEnough()
    ensures !Contains("photo of X", PhotoPrefix)
    ensures ExtractClass(PhotoPrefix + "larva photo of X") == "larv"
  {
    MissingCharNotContained("photo of X", PhotoPrefix, 0);
    LarvaPromptPart();
    ExtractTakesPromptPart(PhotoPrefix + "larva photo of X");
    NoStageOnLarv();
  }

  /** The text between the first and the second separator of "a photo of larva photo of X". */
  lemma LarvaPromptPart()
    ensures Contains(PhotoPrefix + "larva photo of X", PhotoPrefix)
    ensures PromptPart(PhotoPrefix + "larva photo of X") == "larv"
  {
    var rest := "larva photo of X";
    var prompt := PhotoPrefix + rest;
    assert OccursAt(prompt, PhotoPrefix, 0);
    IndexOfAt(prompt, PhotoPrefix, 0);
    assert prompt[|PhotoPrefix|..] == rest;
    SecondOccurrence();
    assert rest[..4] == "larv";
  }

  // ---------------------------------------------------------------------------
  // Catalog prompts name their labels

  /** What a label list and a stage list must satisfy for extraction to undo prompt building. */
  predicate Recoverable(labels: seq<string>, stages: seq<string>)
  {
    && (forall s :: s in stages && s != "" ==> s + " " in GrowthStages)
    && (forall l, s :: l in labels && l != ExceptionLabel && s in stages && s != "" ==>
          !Contains(s + " " + l, PhotoPrefix))
    && (ExceptionLabel in labels ==>
          !Contains(ExceptionLabel, PhotoPrefix) && forall g :: g in GrowthStages ==> !(g <= ExceptionLabel))
  }

  /** Extraction maps each catalog prompt back to the label it was built from. */
  lemma ExtractPromptFor(labels: seq<string>, stages: seq<string>, l: string, s: string)
    requires Recoverable(labels, stages)
    requires l in labels && s in stages && s != ""
    ensures ExtractClass(PromptFor(l, s)) == l
  {
    if l == ExceptionLabel {
      ExtractUnstaged(l);
    } else {
      ExtractStaged(s + " ", l);
      StagedRegrouped(s, l);
    }
  }

  lemma StagedRegrouped(s: string, l: string)
    ensures Staged(s, l) == PhotoPrefix + (s + " ") + l
  {
    assert PhotoPrefix + s + " " == PhotoPrefix + (s + " ");
  }

  /** Every catalog prompt extracts to one of the labels. */
  lemma CatalogPromptsGiveLabels(labels: seq<string>, stages: seq<string>, p: string)
    requires Recoverable(labels, stages) && p in Catalog(labels, stages)
    ensures ExtractClass(p) in labels
  {
    GenerateMembership(labels, stages, p);
    var l, s :| l in labels && s in stages && s != "" && p == PromptFor(l, s);
    ExtractPromptFor(labels, stages, l, s);
  }

  /** Every label is recovered from some catalog prompt. */
  lemma EveryLabelRecovered(labels: seq<string>, stages: seq<string>, l: string)
    requires Recoverable(labels, stages) && l in labels
    requires exists s :: s in stages && s != ""
    ensures exists p :: p in Catalog(labels, stages) && ExtractClass(p) == l
  {
    var s :| s in stages && s != "";
    GenerateMembership(labels, stages, PromptFor(l, s));
    ExtractPromptFor(labels, stages, l, s);
  }

  /** `l` lacks one of the letters 'f' and 'h' of the separator. */
  predicate LacksSeparatorLetter(l: string)
  {
    'f' !in l || 'h' !in l
  }

  /** Each configured label lacks one of the letters 'f' and 'h' of the separator. */
  lemma LabelsLackSeparatorLetter()
    ensures forall l :: l in Labels ==> 'f' !in l || 'h' !in l
  {
    FirstLabelsLackSeparatorLetter();
    MiddleLabelsLackSeparatorLetter();
    LastLabelsLackSeparatorLetter();
    forall l | l in Labels ensures LacksSeparatorLetter(l) {
      var i :| 0 <= i < |Labels| && Labels[i] == l;
    }
  }

  lemma FirstLabelsLackSeparatorLetter()
    ensures forall i :: 0 <= i < 5 ==> LacksSeparatorLetter(Labels[i])
  {
    assert 'f' !in Labels[0];
    assert 'f' !in Labels[1];
    assert 'f' !in Labels[2];
    BeesLackH();
    assert 'f' !in Labels[4];
  }

  lemma BeesLackH()
    ensures 'h' !in Labels[3]
  {
  }

  lemma MiddleLabelsLackSeparatorLetter()
    ensures forall i :: 5 <= i < 10 ==> LacksSeparatorLetter(Labels[i])
  {
    assert 'f' !in Labels[5];
    assert 'f' !in Labels[6];
    assert 'f' !in Labels[7];
    assert 'f' !in Labels[8];
    assert 'f' !in Labels[9];
  }

  lemma LastLabelsLackSeparatorLetter()
    ensures forall i :: 10 <= i < 15 ==> LacksSeparatorLetter(Labels[i])
  {
    assert 'f' !in Labels[10];
    assert 'f' !in Labels[11];
    assert 'f' !in Labels[12];
    assert 'f' !in Labels[13];
    assert 'f' !in Labels[14];
  }

  lemma StagesAreGrowthStages()
    ensures forall s :: s in Stages && s != "" ==> s + " " in GrowthStages && 'f' !in s && 'h' !in s
  {
    forall k | 0 <= k < |Stages| ensures Stages[k] + " " == GrowthStages[k] {
      assert (Stages[k] + " ")[..|Stages[k]|] == Stages[k];
    }
    forall s | s in Stages && s != "" ensures s + " " in GrowthStages && 'f' !in s && 'h' !in s {
      var k :| 0 <= k < |Stages| && Stages[k] == s;
      assert s + " " == GrowthStages[k];
    }
  }

  lemma StagedTextsAvoidSeparator()
    ensures forall l, s :: l in Labels && s in Stages && s != "" ==> !Contains(s + " " + l, PhotoPrefix)
  {
    StagesAreGrowthStages();
    LabelsLackSeparatorLetter();
    forall l, s | l in Labels && s in Stages && s != ""
      ensures !Contains(s + " " + l, PhotoPrefix)
    {
      StagedTextAvoids(s, l);
    }
  }

  /** A stage lacking 'f' and 'h', followed by a label lacking one of them, cannot hold the separator. */
  lemma StagedTextAvoids(s: string, l: string)
    requires 'f' !in s && 'h' !in s && ('f' !in l || 'h' !in l)
    ensures !Contains(s + " " + l, PhotoPrefix)
  {
    var k := if 'f' !in l then 9 else 3;
    var c := PhotoPrefix[k];
    assert c !in s + " " + l by {
      forall i | 0 <= i < |s + " " + l| ensures (s + " " + l)[i] != c {
        if i < |s| {
          assert (s + " " + l)[i] == s[i];
        } else if i > |s| {
          assert (s + " " + l)[i] == l[i - |s| - 1];
        }
      }
    }
    MissingCharNotContained(s + " " + l, PhotoPrefix, k);
  }

  /** "Citrus Canker" neither contains the separator nor starts with a growth stage. */
  lemma ExceptionLabelIsBare()
    ensures !Contains(ExceptionLabel, PhotoPrefix) && forall g :: g in GrowthStages ==> !(g <= ExceptionLabel)
  {
    ExceptionLabelLacksF();
    LacksF(ExceptionLabel);
    forall g | g in GrowthStages ensures !(g <= ExceptionLabel) {
      assert g[0] != ExceptionLabel[0];
    }
  }

  lemma ExceptionLabelLacksF()
    ensures 'f' !in ExceptionLabel
  {
  }

  /** The configured lists satisfy the recovery conditions. */
  lemma DefaultRecoverable()
    ensures Recoverable(Labels, Stages)
  {
    StagesAreGrowthStages();
    StagedTextsAvoidSeparator();
    ExceptionLabelIsBare();
  }

  /**
   With the configured lists, extraction of any catalog prompt is a label, and
   every label is the extraction of some catalog prompt.
   */
  lemma DefaultCatalogRoundTrip()
    ensures forall p :: p in DefaultCatalog() ==> ExtractClass(p) in Labels
    ensures forall l :: l in Labels ==> exists p :: p in DefaultCatalog() && ExtractClass(p) == l
  {
    DefaultRecoverable();
    assert Stages[0] in Stages;
    forall p | p in DefaultCatalog() ensures ExtractClass(p) in Labels {
      CatalogPromptsGiveLabels(Labels, Stages, p);
    }
    forall l | l in Labels ensures exists p :: p in DefaultCatalog() && ExtractClass(p) == l {
      EveryLabelRecovered(Labels, Stages, l);
    }
  }
}

=== FILE: stable_sort.dfy ===
/**
 Python's `list.sort` / `sorted`: a stable sort driven by a strict "less"
 relation. Modelled as insertion sort, which is stable: each element is put in
 front of every element it does not strictly follow.
 */
module StableSort {

  /** No two elements are each less than the other (true of every key order Python sorts by). */
  ghost predicate Asymmetric<T(!new)>(less: (T, T) -> bool)
  {
    forall a, b :: less(a, b) ==> !less(b, a)
  }

  /**
   Not being less is transitive: if `b` is not less than `a` and `c` is not
   less than `b`, then `c` is not less than `a` (true of every total order,
   such as Python's `<` on lists of comparable keys).
   */
  ghost predicate NotLessTransitive<T(!new)>(less: (T, T) -> bool)
  {
    forall a, b, c :: !less(b, a) && !less(c, b) ==> !less(c, a)
  }

  /** No element is strictly less than the one directly before it. */
  predicate Sorted<T>(s: seq<T>, less: (T, T) -> bool)
  {
    forall i :: 0 < i < |s| ==> !less(s[i], s[i - 1])
  }

  /** What `sort` guarantees: no element is strictly less than any element before it. */
  predicate Ordered<T>(s: seq<T>, less: (T, T) -> bool)
  {
    forall i, j :: 0 <= i < j < |s| ==> !less(s[j], s[i])
  }

  function Insert<T>(x: T, s: seq<T>, less: (T, T) -> bool): (r: seq<T>)
    ensures multiset(r) == multiset(s) + multiset{x}
    ensures |r| == |s| + 1
  {
    if |s| == 0 then [x]
    else if less(s[0], x) then
      assert s == [s[0]] + s[1..];
      [s[0]] + Insert(x, s[1..], less)
    else [x] + s
  }

  /** The result of sorting: a permutation of the input in which no element precedes a smaller one. */
  function Sort<T>(s: seq<T>, less: (T, T) -> bool): (r: seq<T>)
    ensures multiset(r) == multiset(s)
    ensures |r| == |s|
  {
    if |s| == 0 then []
    else
      assert s == [s[0]] + s[1..];
      Insert(s[0], Sort(s[1..], less), less)
  }

  lemma {:induction false} InsertSorted<T(!new)>(x: T, s: seq<T>, less: (T, T) -> bool)
    requires Asymmetric(less) && Sorted(s, less)
    ensures Sorted(Insert(x, s, less), less)
    ensures |s| > 0 ==> Insert(x, s, less)[0] == x || Insert(x, s, less)[0] == s[0]
    decreases |s|
  {
    if |s| > 0 && less(s[0], x) {
      var tail := Insert(x, s[1..], less);
      InsertSorted(x, s[1..], less);
      var r := [s[0]] + tail;
      forall i | 0 < i < |r| ensures !less(r[i], r[i - 1]) {
        if i == 1 {
          if tail[0] == x {
            assert !less(x, s[0]);
          } else {
            assert tail[0] == s[1];
          }
        } else {
          assert r[i] == tail[i - 1] && r[i - 1] == tail[i - 2];
        }
      }
    }
  }

  /** Sorting with an asymmetric relation leaves no element directly after one it is less than. */
  lemma {:induction false} SortSorted<T(!new)>(s: seq<T>, less: (T, T) -> bool)
    requires Asymmetric(less)
    ensures Sorted(Sort(s, less), less)
    decreases |s|
  {
    if |s| > 0 {
      SortSorted(s[1..], less);
      InsertSorted(s[0], Sort(s[1..], less), less);
    }
  }

  /** Under a transitive "not less", order between neighbours is order between any two elements. */
  lemma {:induction false} SortedOrdered<T(!new)>(s: seq<T>, less: (T, T) -> bool)
    requires NotLessTransitive(less) && Sorted(s, less)
    ensures Ordered(s, less)
  {
    forall i, j | 0 <= i < j < |s| ensures !less(s[j], s[i]) {
      SortedPair(s, less, i, j);
    }
  }

  lemma {:induction false} SortedPair<T(!new)>(s: seq<T>, less: (T, T) -> bool, i: int, j: int)
    requires NotLessTransitive(less) && Sorted(s, less)
    requires 0 <= i < j < |s|
    ensures !less(s[j], s[i])
    decreases j - i
  {
    if i + 1 < j {
      SortedPair(s, less, i, j - 1);
      assert !less(s[j], s[j - 1]);
    }
  }

  /**
   Sorting with a strict order (asymmetric, with "not less" transitive) leaves
   no element after one it is less than, neighbouring or not.
   */
  lemma SortOrdered<T(!new)>(s: seq<T>, less: (T, T) -> bool)
    requires Asymmetric(less) && NotLessTransitive(less)
    ensures Ordered(Sort(s, less), less)
  {
    SortSorted(s, less);
    SortedOrdered(Sort(s, less), less);
  }

  /** The elements of `s` whose key is `c`, in order. */
  function Having<T>(s: seq<T>, key: T -> int, c: int): seq<T>
  {
    if |s| == 0 then []
    else (if key(s[0]) == c then [s[0]] else []) + Having(s[1..], key, c)
  }

  /** The elements of `[x] + s` having key `c`: `x` if it has it, then those of `s`. */
  lemma HavingCons<T>(x: T, s: seq<T>, key: T -> int, c: int)
    ensures Having([x] + s, key, c) == (if key(x) == c then [x] else []) + Having(s, key, c)
  {
    assert ([x] + s)[1..] == s;
  }

  lemma {:induction false} InsertStable<T>(x: T, s: seq<T>, less: (T, T) -> bool, key: T -> int, c: int)
    requires forall a, b :: less(a, b) <==> key(a) > key(b)
    ensures Having(Insert(x, s, less), key, c) == Having([x] + s, key, c)
    decreases |s|
  {
    if |s| > 0 && less(s[0], x) {
      var hx := if key(x) == c then [x] else [];
      var h0 := if key(s[0]) == c then [s[0]] else [];
      assert hx == [] || h0 == [];
      var rest := Having(s[1..], key, c);
      calc {
        Having(Insert(x, s, less), key, c);
        Having([s[0]] + Insert(x, s[1..], less), key, c);
        { HavingCons(s[0], Insert(x, s[1..], less), key, c); }
        h0 + Having(Insert(x, s[1..], less), key, c);
        { InsertStable(x, s[1..], less, key, c); HavingCons(x, s[1..], key, c); }
        h0 + (hx + rest);
        hx + (h0 + rest);
        { HavingCons(s[0], s[1..], key, c); assert s == [s[0]] + s[1..]; }
        hx + Having(s, key, c);
        { HavingCons(x, s, key, c); }
        Having([x] + s, key, c);
      }
    }
  }

  /**
   Stability for a sort by descending key (`sorted(..., key=k, reverse=True)`):
   the elements sharing any one key value keep their original relative order.
   */
  lemma {:induction false} SortStable<T>(s: seq<T>, less: (T, T) -> bool, key: T -> int, c: int)
    requires forall a, b :: less(a, b) <==> key(a) > key(b)
    ensures Having(Sort(s, less), key, c) == Having(s, key, c)
    decreases |s|
  {
    if |s| > 0 {
      SortStable(s[1..], less, key, c);
      InsertStable(s[0], Sort(s[1..], less), less, key, c);
      HavingCons(s[0], Sort(s[1..], less), key, c);
      HavingCons(s[0], s[1..], key, c);
      assert s == [s[0]] + s[1..];
    }
  }
}

=== FILE: statistics.dfy ===
/**
 The aggregation of zeroshot.py: per-class correctness counts, accuracy,
 the distribution of predicted classes, average confidence, and the run-wide
 totals, as printed by the main block and as written by `save_results`.
 */
module Statistics {
  import opened Wrappers
  import opened Text
  import opened Classification
  import PromptCatalog
  import StableSort

  // ---------------------------------------------------------------------------
  // Sums and means of confidences

  function Sum(xs: seq<real>): real
  {
    if |xs| == 0 then 0.0 else xs[0] + Sum(xs[1..])
  }

  lemma {:induction false} SumAppend(a: seq<real>, b: seq<real>)
    ensures Sum(a + b) == Sum(a) + Sum(b)
    decreases |a|
  {
    if |a| == 0 {
      assert a + b == b;
    } else {
      SumAppend(a[1..], b);
      assert (a + b)[1..] == a[1..] + b;
    }
  }

  /** A sum of values in [lo, hi] lies between |xs|·lo and |xs|·hi. */
  lemma {:induction false} SumBounds(xs: seq<real>, lo: real, hi: real)
    requires forall i :: 0 <= i < |xs| ==> lo <= xs[i] <= hi
    ensures (|xs| as real) * lo <= Sum(xs) <= (|xs| as real) * hi
    decreases |xs|
  {
    if |xs| > 0 {
      SumBounds(xs[1..], lo, hi);
    }
  }

  /** The confidences of a class's records, in record order. */
  function Confidences(results: seq<Record>): (cs: seq<real>)
    ensures |cs| == |results|
  {
    seq(|results|, i requires 0 <= i < |results| => results[i].confidence)
  }

  /** Confidence of every record lies in [0, 1], as the softmax guarantees and the failure record keeps. */
  predicate ConfidencesInRange(results: seq<Record>)
  {
    forall i :: 0 <= i < |results| ==> 0.0 <= results[i].confidence <= 1.0
  }

  /** `x` times `n` is `y`: `x` is `y` shared out over `n`. */
  predicate Scales(x: real, n: nat, y: real)
  {
    x * (n as real) == y
  }

  /** `sum(confidences) / len(...) if ... else 0`: the mean confidence, 0 when there is nothing to average. */
  function MeanConfidence(results: seq<Record>): (m: real)
    ensures |results| == 0 ==> m == 0.0
  {
    if |results| == 0 then 0.0 else Sum(Confidences(results)) / (|results| as real)
  }

  /** The mean times the number of records is the total confidence. */
  lemma MeanTimesCount(results: seq<Record>)
    ensures Scales(MeanConfidence(results), |results|, Sum(Confidences(results)))
  {
    if |results| == 0 {
      assert Confidences(results) == [];
    }
  }

  /** The mean of confidences in [0, 1] is in [0, 1]. */
  lemma MeanConfidenceInRange(results: seq<Record>)
    requires ConfidencesInRange(results)
    ensures 0.0 <= MeanConfidence(results) <= 1.0
  {
    if |results| > 0 {
      SumBounds(Confidences(results), 0.0, 1.0);
      MeanTimesCount(results);
      ScaledBounds(MeanConfidence(results), |results|, Sum(Confidences(results)));
    }
  }

  /** What is shared out over n > 0 from a total in [0, n] is in [0, 1]. */
  lemma ScaledBounds(x: real, n: nat, y: real)
    requires n > 0 && Scales(x, n, y) && 0.0 <= y <= n as real
    ensures 0.0 <= x <= 1.0
  {
    assert x == y / (n as real);
  }

  /** `(part / whole) * 100 if whole else 0`: a percentage, guarded against an empty whole. */
  function Percent(part: nat, whole: nat): (p: real)
    ensures whole == 0 ==> p == 0.0
    ensures whole > 0 ==> p >= 0.0
  {
    if whole == 0 then 0.0 else ((part as real) / (whole as real)) * 100.0
  }

  /** A percentage times its whole is the part times 100, and a part of the whole is at most 100 percent. */
  lemma PercentFacts(part: nat, whole: nat)
    ensures whole > 0 ==> Scales(Percent(part, whole), whole, (part as real) * 100.0)
    ensures part <= whole ==> 0.0 <= Percent(part, whole) <= 100.0
    ensures whole > 0 && part == whole ==> Percent(part, whole) == 100.0
  {
  }

  // ---------------------------------------------------------------------------
  // Correctness counts

  /** Line 289: correctness as the console summary recomputes it, from the stored class. */
  predicate RecountedCorrect(r: Record, className: string)
  {
    r.predictedClass.Some? && r.predictedClass.value != "" && SameClass(r.predictedClass.value, className)
  }

  /** `correct_predictions` after the loop at lines 285-291. */
  function CorrectCount(results: seq<Record>, className: string): (n: nat)
    ensures n <= |results|
    ensures n == 0 <== forall i :: 0 <= i < |results| ==> !RecountedCorrect(results[i], className)
    ensures n == |results| <== forall i :: 0 <= i < |results| ==> RecountedCorrect(results[i], className)
  {
    if |results| == 0 then 0
    else (if RecountedCorrect(results[0], className) then 1 else 0) + CorrectCount(results[1..], className)
  }

  /** Line 143: the reports count the stored `is_correct` flags instead. */
  function StoredCorrectCount(results: seq<Record>): (n: nat)
    ensures n <= |results|
    ensures n == 0 <== forall i :: 0 <= i < |results| ==> !results[i].isCorrect
    ensures n == |results| <== forall i :: 0 <= i < |results| ==> results[i].isCorrect
  {
    if |results| == 0 then 0
    else (if results[0].isCorrect then 1 else 0) + StoredCorrectCount(results[1..])
  }

  /** Two counts agree when the stored flag and the recomputed one agree record by record. */
  lemma {:induction false} CountsAgree(results: seq<Record>, className: string)
    requires forall i :: 0 <= i < |results| ==> (results[i].isCorrect <==> RecountedCorrect(results[i], className))
    ensures CorrectCount(results, className) == StoredCorrectCount(results)
    decreases |results|
  {
    if |results| > 0 {
      CountsAgree(results[1..], className);
    }
  }

  /**
   The recomputed correctness of a record agrees with the stored flag unless
   the folder name and the predicted class are both empty.
   */
  lemma RecountMatchesStored(folder: string, file: string, outcome: Option<Prediction>)
    requires folder != "" || MakeRecord(folder, file, outcome).predictedClass != Some("")
    ensures MakeRecord(folder, file, outcome).isCorrect <==> RecountedCorrect(MakeRecord(folder, file, outcome), folder)
  {
    var r := MakeRecord(folder, file, outcome);
    if r.predictedClass == Some("") {
      assert |Lower(folder)| != |Lower("")|;
    }
  }

  /** For a folder with a name, the console's count (line 289) equals the reports' count (line 143). */
  lemma RecountAgreesWithReport(folder: Folder, classify: Classifier)
    requires folder.name != ""
    ensures var c := ClassifyFolder(folder, classify);
      CorrectCount(c.records, c.name) == StoredCorrectCount(c.records)
  {
    var c := ClassifyFolder(folder, classify);
    forall i | 0 <= i < |c.records|
      ensures c.records[i].isCorrect <==> RecountedCorrect(c.records[i], c.name)
    {
      RecountMatchesStored(folder.name, folder.files[i], classify(ImagePath(folder.name, folder.files[i])));
    }
    CountsAgree(c.records, c.name);
  }

  /** The `if predicted_class` guard of line 289 is what separates the two counts for an unnamed folder. */
  lemma EmptyClassOnlyStoredCorrect(folder: string, file: string, p: Prediction)
    requires folder == "" && p.prompt == "a photo of "
    ensures MakeRecord(folder, file, Some(p)).isCorrect
    ensures !RecountedCorrect(MakeRecord(folder, file, Some(p)), folder)
  {
    LabelNormalizer.ExtractUnstaged("");
    assert PromptCatalog.PhotoPrefix + "" == p.prompt;
  }

  // ---------------------------------------------------------------------------
  // The distribution of predicted classes (`label_counts`)

  /** One `label_counts` item: a predicted class (None for a failure) and how often it was predicted. */
  datatype Entry = Entry(key: Option<string>, count: nat)

  predicate DistinctKeys(entries: seq<Entry>)
  {
    forall i, j :: 0 <= i < j < |entries| ==> entries[i].key != entries[j].key
  }

  /** Lines 294-297: increment the key's count, or add it at the end with count 1. */
  function Bump(entries: seq<Entry>, key: Option<string>): seq<Entry>
  {
    if |entries| == 0 then [Entry(key, 1)]
    else if entries[0].key == key then [Entry(key, entries[0].count + 1)] + entries[1..]
    else [entries[0]] + Bump(entries[1..], key)
  }

  /** `label_counts` after the records have been visited in order (a dict keeps insertion order). */
  function Tally(results: seq<Record>): seq<Entry>
  {
    if |results| == 0 then []
    else Bump(Tally(results[..|results| - 1]), results[|results| - 1].predictedClass)
  }

  /** How many records predicted `key`. */
  function Occurrences(results: seq<Record>, key: Option<string>): nat
  {
    if |results| == 0 then 0
    else Occurrences(results[..|results| - 1], key) + (if results[|results| - 1].predictedClass == key then 1 else 0)
  }

  lemma {:induction false} BumpExisting(entries: seq<Entry>, key: Option<string>, j: nat)
    requires j < |entries| && entries[j].key == key && DistinctKeys(entries)
    ensures var r := Bump(entries, key);
      && |r| == |entries|
      && r[j] == Entry(key, entries[j].count + 1)
      && forall i :: 0 <= i < |entries| && i != j ==> r[i] == entries[i]
    decreases |entries|
  {
    if entries[0].key != key {
      BumpExisting(entries[1..], key, j - 1);
    }
  }

  lemma {:induction false} BumpFresh(entries: seq<Entry>, key: Option<string>)
    requires forall i :: 0 <= i < |entries| ==> entries[i].key != key
    ensures Bump(entries, key) == entries + [Entry(key, 1)]
    decreases |entries|
  {
    if |entries| > 0 {
      BumpFresh(entries[1..], key);
      assert entries == [entries[0]] + entries[1..];
    }
  }

  /**
   `label_counts` holds each predicted class once, with the number of records
   that predicted it, and every predicted class (failures included) has an entry.
   */
  lemma TallyCounts(results: seq<Record>)
    ensures var t := Tally(results);
      && DistinctKeys(t)
      && (forall j :: 0 <= j < |t| ==> t[j].count == Occurrences(results, t[j].key) && t[j].count >= 1)
      && (forall k :: Occurrences(results, k) > 0 ==> exists j :: 0 <= j < |t| && t[j].key == k)
  {
    TallyInvariant(results);
  }

  /** Every entry counts the records that predicted its key. */
  predicate CountsMatch(results: seq<Record>, t: seq<Entry>)
  {
    forall j :: 0 <= j < |t| ==> t[j].count == Occurrences(results, t[j].key) && t[j].count >= 1
  }

  /** Every predicted key has an entry. */
  ghost predicate CoversPredictions(results: seq<Record>, t: seq<Entry>)
  {
    forall k :: Occurrences(results, k) > 0 ==> exists j :: 0 <= j < |t| && t[j].key == k
  }

  lemma {:induction false} TallyInvariant(results: seq<Record>)
    ensures DistinctKeys(Tally(results))
    ensures CountsMatch(results, Tally(results)) && CoversPredictions(results, Tally(results))
    decreases |results|
  {
    if |results| > 0 {
      var init := results[..|results| - 1];
      var k := results[|results| - 1].predictedClass;
      TallyInvariant(init);
      var t0 := Tally(init);
      if j :| 0 <= j < |t0| && t0[j].key == k {
        TallyStepExisting(results, j);
      } else {
        TallyStepFresh(results);
      }
    }
  }

  /** A record whose class already has an entry increments that entry. */
  lemma TallyStepExisting(results: seq<Record>, j: nat)
    requires |results| > 0
    requires var t0 := Tally(results[..|results| - 1]);
      && DistinctKeys(t0) && CountsMatch(results[..|results| - 1], t0)
      && CoversPredictions(results[..|results| - 1], t0)
      && j < |t0| && t0[j].key == results[|results| - 1].predictedClass
    ensures DistinctKeys(Tally(results))
    ensures CountsMatch(results, Tally(results)) && CoversPredictions(results, Tally(results))
  {
    var init := results[..|results| - 1];
    var k := results[|results| - 1].predictedClass;
    var t0 := Tally(init);
    BumpExisting(t0, k, j);
    var t := Tally(results);
    assert forall i :: 0 <= i < |t| ==> t[i].key == t0[i].key;
    forall k' | Occurrences(results, k') > 0
      ensures exists i :: 0 <= i < |t| && t[i].key == k'
    {
      if k' == k {
        assert t[j].key == k';
      } else {
        assert Occurrences(init, k') > 0;
      }
    }
  }

  /** A record whose class has no entry yet appends one with count 1. */
  lemma TallyStepFresh(results: seq<Record>)
    requires |results| > 0
    requires var t0 := Tally(results[..|results| - 1]);
      && DistinctKeys(t0) && CountsMatch(results[..|results| - 1], t0)
      && CoversPredictions(results[..|results| - 1], t0)
      && forall i :: 0 <= i < |t0| ==> t0[i].key != results[|results| - 1].predictedClass
    ensures DistinctKeys(Tally(results))
    ensures CountsMatch(results, Tally(results)) && CoversPredictions(results, Tally(results))
  {
    var init := results[..|results| - 1];
    var k := results[|results| - 1].predictedClass;
    var t0 := Tally(init);
    BumpFresh(t0, k);
    var t := Tally(results);
    assert Occurrences(init, k) == 0;
    forall k' | Occurrences(results, k') > 0
      ensures exists i :: 0 <= i < |t| && t[i].key == k'
    {
      if k' == k {
        assert t[|t0|].key == k;
      } else {
        assert Occurrences(init, k') > 0;
        var i :| 0 <= i < |t0| && t0[i].key == k';
        assert t[i].key == k';
      }
    }
  }


  lemma {:induction false} OccurrencesPrefix(results: seq<Record>, key: Option<string>, p: nat)
    requires p <= |results|
    ensures Occurrences(results[..p], key) <= Occurrences(results, key)
    decreases |results|
  {
    if p < |results| {
      var init := results[..|results| - 1];
      OccurrencesPrefix(init, key, p);
      assert init[..p] == results[..p];
    } else {
      assert results[..p] == results;
    }
  }

  /** A class is predicted by some record exactly when its occurrence count is positive. */
  lemma {:induction false} OccurrencesPositive(results: seq<Record>, key: Option<string>)
    ensures Occurrences(results, key) > 0 <==> exists i :: 0 <= i < |results| && results[i].predictedClass == key
    decreases |results|
  {
    if |results| > 0 {
      var init := results[..|results| - 1];
      OccurrencesPositive(init, key);
      if Occurrences(init, key) > 0 {
        var i :| 0 <= i < |init| && init[i].predictedClass == key;
        assert results[i] == init[i];
      }
      if i :| 0 <= i < |results| && results[i].predictedClass == key {
        if i < |init| {
          assert init[i] == results[i];
        }
      }
    }
  }

  /** Every prefix of the records that predicts `later` also predicts `earlier`: `earlier` was seen first. */
  predicate SeenBefore(results: seq<Record>, earlier: Option<string>, later: Option<string>)
  {
    forall p :: 0 <= p <= |results| && Occurrences(results[..p], later) > 0 ==> Occurrences(results[..p], earlier) > 0
  }

  lemma SeenBeforeExtend(init: seq<Record>, r: Record, earlier: Option<string>, later: Option<string>)
    requires SeenBefore(init, earlier, later) && Occurrences(init, earlier) > 0
    ensures SeenBefore(init + [r], earlier, later)
  {
    var results := init + [r];
    forall p | 0 <= p <= |results| && Occurrences(results[..p], later) > 0
      ensures Occurrences(results[..p], earlier) > 0
    {
      if p == |results| {
        assert results[..p] == results && results[..|results| - 1] == init;
      } else {
        assert results[..p] == init[..p];
      }
    }
  }

  lemma SeenBeforeNew(init: seq<Record>, r: Record, earlier: Option<string>)
    requires Occurrences(init, earlier) > 0 && Occurrences(init, r.predictedClass) == 0
    ensures SeenBefore(init + [r], earlier, r.predictedClass)
  {
    var results := init + [r];
    forall p | 0 <= p <= |results| && Occurrences(results[..p], r.predictedClass) > 0
      ensures Occurrences(results[..p], earlier) > 0
    {
      if p == |results| {
        assert results[..p] == results && results[..|results| - 1] == init;
      } else {
        assert results[..p] == init[..p];
        OccurrencesPrefix(init, r.predictedClass, p);
      }
    }
  }

  /** Entries appear in the order in which their classes were first predicted. */
  lemma {:induction false} TallyFirstSeen(results: seq<Record>)
    ensures var t := Tally(results);
      forall i, j :: 0 <= i < j < |t| ==> SeenBefore(results, t[i].key, t[j].key)
    decreases |results|
  {
    if |results| > 0 {
      var init := results[..|results| - 1];
      var r := results[|results| - 1];
      assert init + [r] == results;
      TallyFirstSeen(init);
      TallyCounts(init);
      var t0 := Tally(init);
      var t := Tally(results);
      if j0 :| 0 <= j0 < |t0| && t0[j0].key == r.predictedClass {
        BumpExisting(t0, r.predictedClass, j0);
      } else {
        BumpFresh(t0, r.predictedClass);
        assert Occurrences(init, r.predictedClass) == 0;
      }
      forall i, j | 0 <= i < j < |t|
        ensures SeenBefore(results, t[i].key, t[j].key)
      {
        assert t[i].key == t0[i].key;
        if j < |t0| {
          assert t[j].key == t0[j].key;
          SeenBeforeExtend(init, r, t0[i].key, t0[j].key);
        } else {
          SeenBeforeNew(init, r, t0[i].key);
        }
      }
    }
  }

  /** The number of records the entries account for. */
  function Total(entries: seq<Entry>): nat
  {
    if |entries| == 0 then 0 else entries[0].count + Total(entries[1..])
  }

  /** `is_match` of line 309, with a failure (None) never matching. */
  predicate Matches(key: Option<string>, className: string)
  {
    key.Some? && SameClass(key.value, className)
  }

  /** The number of records the matching entries account for. */
  function MatchingWeight(entries: seq<Entry>, className: string): nat
  {
    if |entries| == 0 then 0
    else (if Matches(entries[0].key, className) then entries[0].count else 0) + MatchingWeight(entries[1..], className)
  }

  /** How many records predicted a class matching `className`. */
  function MatchingCount(results: seq<Record>, className: string): nat
  {
    if |results| == 0 then 0
    else
      var last := results[|results| - 1];
      MatchingCount(results[..|results| - 1], className) + (if Matches(last.predictedClass, className) then 1 else 0)
  }

  lemma {:induction false} BumpWeights(entries: seq<Entry>, key: Option<string>, className: string)
    ensures Total(Bump(entries, key)) == Total(entries) + 1
    ensures MatchingWeight(Bump(entries, key), className)
      == MatchingWeight(entries, className) + (if Matches(key, className) then 1 else 0)
    decreases |entries|
  {
    if |entries| > 0 && entries[0].key != key {
      BumpWeights(entries[1..], key, className);
    }
  }

  /** The counts of `label_counts` add up to the number of records, and its matching entries to the matching records. */
  lemma {:induction false} TallyWeights(results: seq<Record>, className: string)
    ensures Total(Tally(results)) == |results|
    ensures MatchingWeight(Tally(results), className) == MatchingCount(results, className)
    decreases |results|
  {
    if |results| > 0 {
      TallyWeights(results[..|results| - 1], className);
      BumpWeights(Tally(results[..|results| - 1]), results[|results| - 1].predictedClass, className);
    }
  }

  /** For a class with a name, matching records are exactly the recounted correct ones. */
  lemma {:induction false} MatchingIsCorrect(results: seq<Record>, className: string)
    requires className != ""
    ensures MatchingCount(results, className) == CorrectCount(results, className)
    decreases |results|
  {
    if |results| > 0 {
      var init := results[..|results| - 1];
      var last := results[|results| - 1];
      MatchingIsCorrect(init, className);
      CorrectCountSnoc(init, last, className);
      assert init + [last] == results;
      if last.predictedClass == Some("") {
        assert |Lower(className)| != |Lower("")|;
      }
    }
  }

  lemma {:induction false} CorrectCountSnoc(results: seq<Record>, r: Record, className: string)
    ensures CorrectCount(results + [r], className)
      == CorrectCount(results, className) + (if RecountedCorrect(r, className) then 1 else 0)
    decreases |results|
  {
    if |results| > 0 {
      CorrectCountSnoc(results[1..], r, className);
      assert (results + [r])[1..] == results[1..] + [r];
    }
  }

  // ---------------------------------------------------------------------------
  // Ranking (line 306)

  /** The sort key of line 306 with `reverse=True`: a strictly larger count comes first. */
  predicate MoreFrequent(a: Entry, b: Entry)
  {
    a.count > b.count
  }

  function CountOf(e: Entry): int
  {
    e.count
  }

  /** `sorted(label_counts.items(), key=count, reverse=True)`. */
  function RankByCount(entries: seq<Entry>): seq<Entry>
  {
    StableSort.Sort(entries, MoreFrequent)
  }

  /**
   The ranking is a permutation of the entries, non-increasing by count, and
   entries with equal counts keep their first-seen order.
   */
  lemma RankByCountOrders(entries: seq<Entry>)
    ensures var r := RankByCount(entries);
      && multiset(r) == multiset(entries)
      && (forall i :: 0 < i < |r| ==> r[i].count <= r[i - 1].count)
      && (forall i, j :: 0 <= i < j < |r| ==> r[j].count <= r[i].count)
      && (forall c :: StableSort.Having(r, CountOf, c) == StableSort.Having(entries, CountOf, c))
  {
    StableSort.SortSorted(entries, MoreFrequent);
    StableSort.SortOrdered(entries, MoreFrequent);
    forall c ensures StableSort.Having(RankByCount(entries), CountOf, c) == StableSort.Having(entries, CountOf, c) {
      StableSort.SortStable(entries, MoreFrequent, CountOf, c);
    }
  }

  lemma {:induction false} InsertWeights(x: Entry, s: seq<Entry>, className: string)
    ensures Total(StableSort.Insert(x, s, MoreFrequent)) == x.count + Total(s)
    ensures MatchingWeight(StableSort.Insert(x, s, MoreFrequent), className)
      == MatchingWeight([x] + s, className)
    decreases |s|
  {
    if |s| > 0 && MoreFrequent(s[0], x) {
      InsertWeights(x, s[1..], className);
    }
  }

  /** Ranking neither loses nor invents counts. */
  lemma {:induction false} RankWeights(entries: seq<Entry>, className: string)
    ensures Total(RankByCount(entries)) == Total(entries)
    ensures MatchingWeight(RankByCount(entries), className) == MatchingWeight(entries, className)
    decreases |entries|
  {
    if |entries| > 0 {
      RankWeights(entries[1..], className);
      InsertWeights(entries[0], RankByCount(entries[1..]), className);
    }
  }

  // ---------------------------------------------------------------------------
  // Per-class summary (lines 279-315)

  /** What the console prints for one class. */
  datatype ClassSummary = ClassSummary(
    name: string,
    total: nat,
    correct: nat,
    accuracy: real,
    distribution: seq<Entry>,
    avgConfidence: real)

  /**
   The per-class summary with the two crashes of the code removed: a failure
   is listed under its own (None) entry and never matches, and an empty class
   averages to 0 as in the reports.
   */
  function SummarizeClass(c: ClassResults): ClassSummary
  {
    var correct := CorrectCount(c.records, c.name);
    ClassSummary(c.name, |c.records|, correct, Percent(correct, |c.records|),
                 RankByCount(Tally(c.records)), MeanConfidence(c.records))
  }

  /** The two exceptions the console summary can raise. */
  datatype Crash =
    | NoneHasNoLower  // `label.lower()` on the None key (line 309)
    | DivisionByZero  // the unguarded average of an empty class (line 314)

  /**
   The per-class summary as written: the distribution loop reaches the None
   entry and raises, and an empty class divides by zero.
   */
  function SummarizeClassAsWritten(c: ClassResults): Result<ClassSummary, Crash>
  {
    var s := SummarizeClass(c);
    if exists k :: 0 <= k < |s.distribution| && s.distribution[k].key.None? then Err(NoneHasNoLower)
    else if |c.records| == 0 then Err(DivisionByZero)
    else Ok(s)
  }

  /** The accuracy of a class is the percentage of its records recounted as correct. */
  lemma ClassAccuracy(c: ClassResults)
    ensures var s := SummarizeClass(c);
      && s.total == |c.records|
      && s.correct <= s.total
      && 0.0 <= s.accuracy <= 100.0
      && (s.total > 0 ==> Scales(s.accuracy, s.total, (s.correct as real) * 100.0))
      && (s.total == 0 ==> s.accuracy == 0.0)
  {
    var s := SummarizeClass(c);
    PercentFacts(s.correct, s.total);
  }

  /**
   The distribution accounts for every record, is non-increasing by count,
   and, for a named class, its matching entries add up to the correct count.
   */
  lemma ClassDistributionTotals(c: ClassResults)
    ensures var s := SummarizeClass(c);
      && Total(s.distribution) == |c.records|
      && (forall i :: 0 < i < |s.distribution| ==> s.distribution[i].count <= s.distribution[i - 1].count)
      && (c.name != "" ==> MatchingWeight(s.distribution, c.name) == s.correct)
  {
    var t := Tally(c.records);
    TallyWeights(c.records, c.name);
    RankWeights(t, c.name);
    RankByCountOrders(t);
    if c.name != "" {
      MatchingIsCorrect(c.records, c.name);
    }
  }

  /** The distribution lists each predicted class once, failures included, with its number of records. */
  lemma ClassDistribution(c: ClassResults)
    ensures var d := SummarizeClass(c).distribution;
      && (forall j :: 0 <= j < |d| ==> d[j].count == Occurrences(c.records, d[j].key) && d[j].count >= 1)
      && (forall i :: 0 <= i < |c.records| ==> exists j :: 0 <= j < |d| && d[j].key == c.records[i].predictedClass)
      && DistinctKeys(d)
  {
    RankedCounts(c.records);
    RankedCovers(c.records);
    RankedDistinct(c.records);
  }

  lemma RankedDistinct(records: seq<Record>)
    ensures DistinctKeys(RankByCount(Tally(records)))
  {
    TallyCounts(records);
    RankByCountOrders(Tally(records));
    PermutationKeepsDistinctKeys(Tally(records), RankByCount(Tally(records)));
  }

  /** Reordering entries whose keys are distinct leaves their keys distinct. */
  lemma PermutationKeepsDistinctKeys(t: seq<Entry>, d: seq<Entry>)
    requires DistinctKeys(t) && multiset(d) == multiset(t)
    ensures DistinctKeys(d)
  {
    forall i, j | 0 <= i < j < |d| ensures d[i].key != d[j].key {
      if d[i].key == d[j].key {
        assert d[i] in multiset(t) && d[j] in multiset(t);
        SameKeySameEntry(t, d[i], d[j]);
        TwiceCounted(d, i, j);
        AtMostOnce(t, d[i]);
        assert false;
      }
    }
  }

  /** With distinct keys, an entry is determined by its key. */
  lemma SameKeySameEntry(t: seq<Entry>, x: Entry, y: Entry)
    requires DistinctKeys(t) && x in t && y in t && x.key == y.key
    ensures x == y
  {
    var p :| 0 <= p < |t| && t[p] == x;
    var q :| 0 <= q < |t| && t[q] == y;
    if p != q {
      assert false;
    }
  }

  /** With distinct keys, no entry occurs twice. */
  lemma {:induction false} AtMostOnce(t: seq<Entry>, x: Entry)
    requires DistinctKeys(t)
    ensures multiset(t)[x] <= 1
    decreases |t|
  {
    if |t| > 0 {
      assert t == [t[0]] + t[1..];
      AtMostOnce(t[1..], x);
      if x == t[0] {
        assert x !in t[1..] by {
          forall k | 0 <= k < |t[1..]| ensures t[1..][k] != x {
            assert t[1..][k] == t[k + 1];
          }
        }
      }
    }
  }

  /** An entry at two positions is counted at least twice. */
  lemma TwiceCounted(d: seq<Entry>, i: nat, j: nat)
    requires i < j < |d| && d[i] == d[j]
    ensures multiset(d)[d[i]] >= 2
  {
    assert d == d[..j] + [d[j]] + d[j + 1..];
    assert d[i] == d[..j][i];
  }

  lemma RankedCounts(records: seq<Record>)
    ensures var d := RankByCount(Tally(records));
      forall j :: 0 <= j < |d| ==> d[j].count == Occurrences(records, d[j].key) && d[j].count >= 1
  {
    var t := Tally(records);
    var d := RankByCount(t);
    TallyCounts(records);
    RankByCountOrders(t);
    forall j | 0 <= j < |d| ensures d[j].count == Occurrences(records, d[j].key) && d[j].count >= 1 {
      assert d[j] in multiset(t);
    }
  }

  lemma RankedCovers(records: seq<Record>)
    ensures var d := RankByCount(Tally(records));
      forall i :: 0 <= i < |records| ==> exists j :: 0 <= j < |d| && d[j].key == records[i].predictedClass
  {
    var t := Tally(records);
    var d := RankByCount(t);
    TallyCounts(records);
    RankByCountOrders(t);
    forall i | 0 <= i < |records| ensures exists j :: 0 <= j < |d| && d[j].key == records[i].predictedClass {
      OccurrencesPositive(records, records[i].predictedClass);
      var j :| 0 <= j < |t| && t[j].key == records[i].predictedClass;
      assert t[j] in multiset(d);
    }
  }

  /** A None entry is listed exactly when some image of the class failed. */
  lemma FailureListed(c: ClassResults)
    ensures var d := SummarizeClass(c).distribution;
      (exists k :: 0 <= k < |d| && d[k].key.None?) <==> exists i :: 0 <= i < |c.records| && c.records[i].predictedClass.None?
  {
    ClassDistribution(c);
    var d := SummarizeClass(c).distribution;
    if k :| 0 <= k < |d| && d[k].key.None? {
      OccurrencesPositive(c.records, d[k].key);
    }
  }

  /**
   The console summary of a class raises exactly when an image of the class
   failed (line 309) or the class is empty (line 314); otherwise it is the
   corrected summary.
   */
  lemma ClassCrashes(c: ClassResults)
    ensures SummarizeClassAsWritten(c) == Err(NoneHasNoLower)
      <==> exists i :: 0 <= i < |c.records| && c.records[i].predictedClass.None?
    ensures SummarizeClassAsWritten(c) == Err(DivisionByZero) <==> |c.records| == 0
    ensures SummarizeClassAsWritten(c).Ok? ==> SummarizeClassAsWritten(c).value == SummarizeClass(c)
  {
    FailureListed(c);
  }

  /** The shares printed beside the distribution, summed. */
  function PercentSum(entries: seq<Entry>, whole: nat): real
  {
    if |entries| == 0 then 0.0 else Percent(entries[0].count, whole) + PercentSum(entries[1..], whole)
  }

  lemma {:induction false} PercentSumOfTotal(entries: seq<Entry>, whole: nat)
    requires whole > 0
    ensures Scales(PercentSum(entries, whole), whole, (Total(entries) as real) * 100.0)
    decreases |entries|
  {
    if |entries| > 0 {
      PercentSumOfTotal(entries[1..], whole);
      var a := Percent(entries[0].count, whole);
      PercentFacts(entries[0].count, whole);
      var b := PercentSum(entries[1..], whole);
      assert (a + b) * (whole as real) == a * (whole as real) + b * (whole as real);
    }
  }

  /** Shares of a whole that the entries exhaust add up to 100. */
  lemma PercentSumFull(entries: seq<Entry>, whole: nat)
    requires whole > 0 && Total(entries) == whole
    ensures PercentSum(entries, whole) == 100.0
  {
    PercentSumOfTotal(entries, whole);
    ScaledToWhole(PercentSum(entries, whole), whole as real, Total(entries) as real);
  }

  /** A share that, scaled by the whole, gives 100 times the whole, is 100. */
  lemma ScaledToWhole(ps: real, w: real, t: real)
    requires w > 0.0 && t == w && ps * w == t * 100.0
    ensures ps == 100.0
  {
    assert ps * w == 100.0 * w;
    Cancel(ps, 100.0, w);
  }

  /** The printed percentages of a non-empty class add up to 100. */
  lemma PercentagesAddUp(c: ClassResults)
    requires |c.records| > 0
    ensures PercentSum(SummarizeClass(c).distribution, |c.records|) == 100.0
  {
    ClassDistributionTotals(c);
    PercentSumFull(SummarizeClass(c).distribution, |c.records|);
  }

  lemma Cancel(x: real, y: real, w: real)
    requires w > 0.0 && x * w == y * w
    ensures x == y
  {
    assert (x - y) * w == x * w - y * w;
  }

  /** The mean confidence of a class lies in [0, 1]. */
  lemma ClassConfidenceInRange(c: ClassResults)
    requires ConfidencesInRange(c.records)
    ensures 0.0 <= SummarizeClass(c).avgConfidence <= 1.0
  {
    MeanConfidenceInRange(c.records);
  }

  /** The summary of an empty class: nothing counted, accuracy and mean confidence 0. */
  lemma EmptyClassSummary(name: string)
    ensures SummarizeClass(ClassResults(name, [])) == ClassSummary(name, 0, 0, 0.0, [], 0.0)
  {
  }

  /**
   Three images of the class "Aphids", the second predicted as another class,
   with confidences 0.9, 0.4 and 0.7: two correct, accuracy 200/3 percent,
   mean confidence 2/3, and the distribution lists the class before the miss.
   */
  lemma ThreeImageClass(r1: Record, r2: Record, r3: Record)
    requires r1.predictedClass == Some("Aphids") && r1.confidence == 0.9
    requires r2.predictedClass == Some("Fruit Flies") && r2.confidence == 0.4
    requires r3.predictedClass == Some("Aphids") && r3.confidence == 0.7
    ensures var s := SummarizeClass(ClassResults("Aphids", [r1, r2, r3]));
      && s.total == 3 && s.correct == 2
      && s.accuracy == 200.0 / 3.0
      && s.avgConfidence == 2.0 / 3.0
      && s.distribution == [Entry(Some("Aphids"), 2), Entry(Some("Fruit Flies"), 1)]
  {
    ThreeImageCorrect(r1, r2, r3);
    ThreeImageConfidences(r1, r2, r3);
    ThreeImageRanking(r1, r2, r3);
  }

  lemma ThreeImageCorrect(r1: Record, r2: Record, r3: Record)
    requires r1.predictedClass == Some("Aphids") && r2.predictedClass == Some("Fruit Flies")
    requires r3.predictedClass == Some("Aphids")
    ensures CorrectCount([r1, r2, r3], "Aphids") == 2
  {
    var rs := [r1, r2, r3];
    assert |Lower("Fruit Flies")| != |Lower("Aphids")|;
    assert RecountedCorrect(r1, "Aphids") && !RecountedCorrect(r2, "Aphids") && RecountedCorrect(r3, "Aphids");
    assert rs[1..] == [r2, r3] && [r2, r3][1..] == [r3] && [r3][1..] == [];
  }

  lemma ThreeImageConfidences(r1: Record, r2: Record, r3: Record)
    requires r1.confidence == 0.9 && r2.confidence == 0.4 && r3.confidence == 0.7
    ensures Sum(Confidences([r1, r2, r3])) == 2.0
  {
    assert Confidences([r1, r2, r3]) == [0.9, 0.4, 0.7];
    assert [0.9, 0.4, 0.7][1..] == [0.4, 0.7] && [0.4, 0.7][1..] == [0.7] && [0.7][1..] == [];
  }

  lemma ThreeImageRanking(r1: Record, r2: Record, r3: Record)
    requires r1.predictedClass == Some("Aphids") && r2.predictedClass == Some("Fruit Flies")
    requires r3.predictedClass == Some("Aphids")
    ensures RankByCount(Tally([r1, r2, r3])) == [Entry(Some("Aphids"), 2), Entry(Some("Fruit Flies"), 1)]
  {
    var rs := [r1, r2, r3];
    assert rs[..2] == [r1, r2] && [r1, r2][..1] == [r1] && [r1][..0] == [];
    var a := Entry(Some("Aphids"), 2);
    var t := Entry(Some("Fruit Flies"), 1);
    assert Tally([r1]) == [Entry(Some("Aphids"), 1)];
    assert |"Aphids"| != |"Fruit Flies"|;
    assert [Entry(Some("Aphids"), 1)][1..] == [];
    assert Tally([r1, r2]) == [Entry(Some("Aphids"), 1), t];
    assert Tally(rs) == [a, t];
    assert StableSort.Sort([t], MoreFrequent) == [t] by {
      assert [t][1..] == [];
    }
    assert [a, t][1..] == [t];
  }


  // ---------------------------------------------------------------------------
  // Run summary (lines 274-325)

  /** Every record of the run, class by class, as the `all_confidences` loop visits them. */
  function AllRecords(classes: seq<ClassResults>): seq<Record>
  {
    if |classes| == 0 then [] else classes[0].records + AllRecords(classes[1..])
  }

  /** `total_correct` as accumulated at line 300. */
  function TotalCorrect(classes: seq<ClassResults>): nat
  {
    if |classes| == 0 then 0
    else CorrectCount(classes[0].records, classes[0].name) + TotalCorrect(classes[1..])
  }

  /** `overall_avg_confidence` (lines 90-95 and 321-325): the mean over all records of the run. */
  function OverallAvgConfidence(classes: seq<ClassResults>): real
  {
    MeanConfidence(AllRecords(classes))
  }

  /** The class summaries, in class order. */
  function ClassSummaries(classes: seq<ClassResults>): (s: seq<ClassSummary>)
    ensures |s| == |classes|
    ensures forall i :: 0 <= i < |classes| ==> s[i] == SummarizeClass(classes[i])
  {
    if |classes| == 0 then [] else [SummarizeClass(classes[0])] + ClassSummaries(classes[1..])
  }

  /** What the console prints for the whole run. */
  datatype RunSummary = RunSummary(
    classes: seq<ClassSummary>,
    totalFiles: nat,
    totalCorrect: nat,
    overallAccuracy: real,
    overallAvgConfidence: real)

  /** The run summary, with the per-class crashes corrected. */
  function Summarize(classes: seq<ClassResults>): RunSummary
  {
    var files := RecordCount(classes);
    var correct := TotalCorrect(classes);
    RunSummary(ClassSummaries(classes), files, correct, Percent(correct, files), OverallAvgConfidence(classes))
  }

  /** The crash of the first class, in order, whose console summary raises. */
  function FirstCrash(classes: seq<ClassResults>): Option<Crash>
  {
    if |classes| == 0 then None
    else match SummarizeClassAsWritten(classes[0])
      case Err(e) => Some(e)
      case Ok(_) => FirstCrash(classes[1..])
  }

  /** The run as written: the first crash ends it, before `save_results` is reached. */
  function SummarizeAsWritten(classes: seq<ClassResults>): Result<RunSummary, Crash>
  {
    match FirstCrash(classes)
    case Some(e) => Err(e)
    case None => Ok(Summarize(classes))
  }

  function SumTotals(summaries: seq<ClassSummary>): nat
  {
    if |summaries| == 0 then 0 else summaries[0].total + SumTotals(summaries[1..])
  }

  function SumCorrect(summaries: seq<ClassSummary>): nat
  {
    if |summaries| == 0 then 0 else summaries[0].correct + SumCorrect(summaries[1..])
  }

  /** A class mean weighted by the class size. */
  function Weight(s: ClassSummary): real
  {
    s.avgConfidence * (s.total as real)
  }

  /** The class means weighted by class size, summed. */
  function WeightedConfidence(summaries: seq<ClassSummary>): real
  {
    if |summaries| == 0 then 0.0 else Weight(summaries[0]) + WeightedConfidence(summaries[1..])
  }

  lemma {:induction false} ConfidencesAppend(a: seq<Record>, b: seq<Record>)
    ensures Confidences(a + b) == Confidences(a) + Confidences(b)
  {
  }

  /** A class's mean times its size is the sum of its confidences. */
  lemma ClassWeight(c: ClassResults)
    ensures Weight(SummarizeClass(c)) == Sum(Confidences(c.records))
  {
    var s := SummarizeClass(c);
    assert s.avgConfidence == MeanConfidence(c.records) && s.total == |c.records|;
    MeanWeight(s, c.records);
  }

  lemma MeanWeight(s: ClassSummary, results: seq<Record>)
    requires s.avgConfidence == MeanConfidence(results) && s.total == |results|
    ensures Weight(s) == Sum(Confidences(results))
  {
    MeanTimesCount(results);
  }

  lemma {:induction false} SummariesCount(classes: seq<ClassResults>)
    ensures SumTotals(ClassSummaries(classes)) == RecordCount(classes) == |AllRecords(classes)|
    ensures SumCorrect(ClassSummaries(classes)) == TotalCorrect(classes) <= RecordCount(classes)
    decreases |classes|
  {
    if |classes| > 0 {
      SummariesCount(classes[1..]);
      var s := ClassSummaries(classes);
      assert s[0] == SummarizeClass(classes[0]) && s[1..] == ClassSummaries(classes[1..]);
    }
  }

  lemma {:induction false} SummariesConfidence(classes: seq<ClassResults>)
    ensures WeightedConfidence(ClassSummaries(classes)) == Sum(Confidences(AllRecords(classes)))
    decreases |classes|
  {
    if |classes| > 0 {
      SummariesConfidence(classes[1..]);
      var s := ClassSummaries(classes);
      assert s[0] == SummarizeClass(classes[0]) && s[1..] == ClassSummaries(classes[1..]);
      ClassWeight(classes[0]);
      ConfidencesAppend(classes[0].records, AllRecords(classes[1..]));
      SumAppend(Confidences(classes[0].records), Confidences(AllRecords(classes[1..])));
    }
  }

  /** The run totals are the sums of the class figures. */
  lemma RunTotals(classes: seq<ClassResults>)
    ensures var run := Summarize(classes);
      && run.totalFiles == SumTotals(run.classes) == |AllRecords(classes)|
      && run.totalCorrect == SumCorrect(run.classes)
      && run.totalCorrect <= run.totalFiles
  {
    SummariesCount(classes);
  }

  /** The overall accuracy is the percentage of correct records in the run, 0 for a run without records. */
  lemma RunAccuracy(classes: seq<ClassResults>)
    ensures var run := Summarize(classes);
      && 0.0 <= run.overallAccuracy <= 100.0
      && (run.totalFiles == 0 ==> run.overallAccuracy == 0.0)
      && (run.totalFiles > 0 ==> Scales(run.overallAccuracy, run.totalFiles, (run.totalCorrect as real) * 100.0))
  {
    var files := RecordCount(classes);
    var correct := TotalCorrect(classes);
    SummariesCount(classes);
    PercentFacts(correct, files);
  }

  /** The overall mean confidence weights each class mean by the class size. */
  lemma RunConfidence(classes: seq<ClassResults>)
    ensures var run := Summarize(classes);
      Scales(run.overallAvgConfidence, run.totalFiles, WeightedConfidence(run.classes))
  {
    SummariesCount(classes);
    SummariesConfidence(classes);
    MeanTimesCount(AllRecords(classes));
  }

  /** The overall mean confidence lies in [0, 1]. */
  lemma {:induction false} OverallConfidenceInRange(classes: seq<ClassResults>)
    requires forall k :: 0 <= k < |classes| ==> ConfidencesInRange(classes[k].records)
    ensures 0.0 <= Summarize(classes).overallAvgConfidence <= 1.0
    decreases |classes|
  {
    AllRecordsInRange(classes);
    MeanConfidenceInRange(AllRecords(classes));
  }

  lemma {:induction false} AllRecordsInRange(classes: seq<ClassResults>)
    requires forall k :: 0 <= k < |classes| ==> ConfidencesInRange(classes[k].records)
    ensures ConfidencesInRange(AllRecords(classes))
    decreases |classes|
  {
    if |classes| > 0 {
      AllRecordsInRange(classes[1..]);
    }
  }

  /** The overall mean is not the mean of the class means: 1/3 here, where the class means average to 1/2. */
  lemma MeanOfMeansDiffers(a: Record, b: Record)
    requires a.confidence == 1.0 && b.confidence == 0.0
    ensures var classes := [ClassResults("A", [a]), ClassResults("B", [b, b])];
      && OverallAvgConfidence(classes) == 1.0 / 3.0
      && (MeanConfidence(classes[0].records) + MeanConfidence(classes[1].records)) / 2.0 == 0.5
  {
    var classes := [ClassResults("A", [a]), ClassResults("B", [b, b])];
    assert AllRecords(classes) == [a, b, b] by {
      assert AllRecords(classes[1..]) == [b, b] + AllRecords([]);
    }
    assert Confidences([a, b, b]) == [1.0, 0.0, 0.0];
    assert Sum([1.0, 0.0, 0.0]) == 1.0 by {
      assert [1.0, 0.0, 0.0][1..] == [0.0, 0.0];
      assert [0.0, 0.0][1..] == [0.0];
    }
    assert MeanConfidence([a, b, b]) == 1.0 / 3.0;
    assert Confidences([b, b]) == [0.0, 0.0];
    assert Sum([0.0, 0.0]) == 0.0 by {
      assert [0.0, 0.0][1..] == [0.0];
    }
    assert Confidences([a]) == [1.0];
    assert Sum([1.0]) == 1.0;
  }

  /** A class whose console summary raises: it is empty or one of its images failed. */
  predicate Aborts(c: ClassResults)
  {
    |c.records| == 0 || exists i :: 0 <= i < |c.records| && c.records[i].predictedClass.None?
  }

  /**
   The console summary as written raises exactly when some class is empty
   or has a failed image; otherwise it is the corrected summary.
   */
  lemma {:induction false} RunCrashes(classes: seq<ClassResults>)
    ensures SummarizeAsWritten(classes).Err? <==> exists k :: 0 <= k < |classes| && Aborts(classes[k])
    ensures SummarizeAsWritten(classes).Ok? ==> SummarizeAsWritten(classes).value == Summarize(classes)
    decreases |classes|
  {
    if |classes| > 0 {
      RunCrashes(classes[1..]);
      ClassCrashes(classes[0]);
      if SummarizeClassAsWritten(classes[0]).Ok? {
        forall k | 1 <= k < |classes| ensures classes[k] == classes[1..][k - 1] { }
      }
    }
  }

  // ---------------------------------------------------------------------------
  // Runs of the classifier

  /** The recounted `total_files` of a classified run is the number of image files found. */
  lemma ClassifiedRunTotals(folders: seq<Folder>, classify: Classifier)
    ensures Summarize(ClassifyAll(folders, classify)).totalFiles == FileCount(folders)
  {
    RecordsConserved(folders, classify);
  }

  /**
   With an honest classifier, the console summary as written raises exactly
   when some folder is empty or one of its images could not be classified.
   */
  lemma ClassifiedRunCrashes(labels: seq<string>, stages: seq<string>, folders: seq<Folder>, classify: Classifier)
    requires Honest(classify, PromptCatalog.Catalog(labels, stages))
    ensures SummarizeAsWritten(ClassifyAll(folders, classify)).Err? <==>
      exists k :: 0 <= k < |folders| && FolderAborts(folders[k], classify)
  {
    var classes := ClassifyAll(folders, classify);
    RunCrashes(classes);
    forall k | 0 <= k < |folders| ensures Aborts(classes[k]) <==> FolderAborts(folders[k], classify) {
      ClassifiedFolderAborts(labels, stages, folders[k], classify);
    }
  }

  /** A folder whose summary raises under an honest classifier: it is empty or one of its images is unreadable. */
  predicate FolderAborts(folder: Folder, classify: Classifier)
  {
    |folder.files| == 0 || exists i :: 0 <= i < |folder.files| && classify(ImagePath(folder.name, folder.files[i])).None?
  }

  lemma ClassifiedFolderAborts(labels: seq<string>, stages: seq<string>, folder: Folder, classify: Classifier)
    requires Honest(classify, PromptCatalog.Catalog(labels, stages))
    ensures Aborts(ClassifyFolder(folder, classify)) <==> FolderAborts(folder, classify)
  {
    var c := ClassifyFolder(folder, classify);
    ClassifyFolderOnePerFile(folder, classify);
    forall i | 0 <= i < |folder.files|
      ensures c.records[i].predictedClass.None? <==> classify(ImagePath(folder.name, folder.files[i])).None?
    {
      FailedExactlyWhenClassifierFailed(labels, stages, folder.name, folder.files[i], classify);
    }
    if FolderAborts(folder, classify) && |folder.files| > 0 {
      var i :| 0 <= i < |folder.files| && classify(ImagePath(folder.name, folder.files[i])).None?;
      assert c.records[i].predictedClass.None?;
    }
    if Aborts(c) && |c.records| > 0 {
      var i :| 0 <= i < |c.records| && c.records[i].predictedClass.None?;
      assert classify(ImagePath(folder.name, folder.files[i])).None?;
    }
  }

  /** One unreadable image ends the run at line 309, before any report is saved. */
  lemma UnreadableImageAbortsRun(classify: Classifier)
    requires classify(ImagePath("Aphids", "1.jpg")) == None
    ensures SummarizeAsWritten(ClassifyAll([Folder("Aphids", ["1.jpg"])], classify)) == Err(NoneHasNoLower)
  {
    var classes := ClassifyAll([Folder("Aphids", ["1.jpg"])], classify);
    assert classes[0].records[0].predictedClass == None;
    ClassCrashes(classes[0]);
  }

  /** An empty class folder ends the run at line 314. */
  lemma EmptyFolderAbortsRun(classify: Classifier)
    ensures SummarizeAsWritten(ClassifyAll([Folder("Aphids", [])], classify)) == Err(DivisionByZero)
  {
    ClassCrashes(ClassifyAll([Folder("Aphids", [])], classify)[0]);
  }

  /** The corrected summary of the same inputs lists the failure under its own entry and counts it wrong. */
  lemma UnreadableImageSummarized(classify: Classifier)
    requires classify(ImagePath("Aphids", "1.jpg")) == None
    ensures var s := SummarizeClass(ClassifyFolder(Folder("Aphids", ["1.jpg"]), classify));
      s.total == 1 && s.correct == 0 && s.accuracy == 0.0 && s.distribution == [Entry(None, 1)] && s.avgConfidence == 0.0
  {
    var c := ClassifyFolder(Folder("Aphids", ["1.jpg"]), classify);
    assert c.records == [Record("1.jpg", None, None, 0.0, false)];
    assert c.records[..0] == [];
    assert Tally(c.records) == [Entry(None, 1)];
    assert [Entry(None, 1)][1..] == [];
    assert Confidences(c.records) == [0.0];
    assert Sum([0.0]) == 0.0 + Sum([]);
  }

  // ---------------------------------------------------------------------------
  // The saved reports (lines 86-205)

  /** A per-class row of the saved reports. */
  datatype ReportRow = ReportRow(name: string, total: nat, correct: nat, accuracy: real, avgConfidence: real)

  /** Lines 143-145 (repeated at 170-172 and 199-201): the row counts the stored flags. */
  function ReportRowOf(c: ClassResults): ReportRow
  {
    var correct := StoredCorrectCount(c.records);
    ReportRow(c.name, |c.records|, correct, Percent(correct, |c.records|), MeanConfidence(c.records))
  }

  /** For a classified folder with a name, the saved row agrees with the console summary. */
  lemma ReportAgreesWithConsole(folder: Folder, classify: Classifier)
    requires folder.name != ""
    ensures var c := ClassifyFolder(folder, classify);
      var s := SummarizeClass(c);
      ReportRowOf(c) == ReportRow(s.name, s.total, s.correct, s.accuracy, s.avgConfidence)
  {
    RecountAgreesWithReport(folder, classify);
  }

  /** The report of an empty class is all zeros, where the console summary divides by zero. */
  lemma EmptyReportRow(name: string)
    ensures ReportRowOf(ClassResults(name, [])) == ReportRow(name, 0, 0, 0.0, 0.0)
  {
  }
}
=== FILE: text.dfy ===
/**
 The string primitives the pipeline relies on, in the Python semantics it uses:
 ASCII `str.lower()`, `sub in s`, `s.startswith(p)`, `s.split(sep)` and the
 inverse of the latter, `sep.join(parts)`.
 */
module Text {
  import opened Wrappers

  predicate IsUpper(c: char) { 'A' <= c <= 'Z' }

  predicate IsDigit(c: char) { '0' <= c <= '9' }

  function LowerChar(c: char): char
  {
    if IsUpper(c) then (c as int + 32) as char else c
  }

  /** `s.lower()`, restricted to ASCII letters. */
  function Lower(s: string): (r: string)
    ensures |r| == |s|
    ensures forall i :: 0 <= i < |r| ==> !IsUpper(r[i])
    ensures forall i :: 0 <= i < |s| ==> (IsDigit(r[i]) <==> IsDigit(s[i]))
  {
    seq(|s|, i requires 0 <= i < |s| => LowerChar(s[i]))
  }

  /** Lowering a string twice is lowering it once. */
  lemma LowerIdempotent(s: string)
    ensures Lower(Lower(s)) == Lower(s)
  {
  }

  /** `p` occurs in `s` starting at index `i`. */
  predicate OccursAt(s: string, p: string, i: nat)
  {
    i + |p| <= |s| && s[i..i + |p|] == p
  }

  lemma OccursAtShift(s: string, p: string, j: nat)
    requires |s| > 0
    ensures OccursAt(s, p, j + 1) <==> OccursAt(s[1..], p, j)
  {
    if j + 1 + |p| <= |s| {
      assert s[j + 1..j + 1 + |p|] == s[1..][j..j + |p|];
    }
  }

  lemma OccursAtShiftAll(s: string, p: string)
    requires |s| > 0
    ensures forall j: nat :: j >= 1 ==> (OccursAt(s, p, j) <==> OccursAt(s[1..], p, j - 1))
  {
    forall j: nat | j >= 1 ensures OccursAt(s, p, j) <==> OccursAt(s[1..], p, j - 1) {
      OccursAtShift(s, p, j - 1);
    }
  }

  /** The leftmost index at which `p` occurs in `s`, if any: the search behind `p in s` and `s.split(p)`. */
  function IndexOf(s: string, p: string): (r: Option<nat>)
    ensures r.Some? ==> OccursAt(s, p, r.value)
    decreases |s|
  {
    if |s| < |p| then None
    else if p <= s then Some(0)
    else
      match IndexOf(s[1..], p)
      case None => None
      case Some(k) => OccursAtShift(s, p, k); Some(k + 1)
  }

  /** The index found is the first occurrence, and nothing is found exactly when `p` occurs nowhere. */
  lemma {:induction false} IndexOfFirst(s: string, p: string)
    ensures IndexOf(s, p).Some? ==> forall j: nat :: j < IndexOf(s, p).value ==> !OccursAt(s, p, j)
    ensures IndexOf(s, p).None? <==> forall j: nat :: !OccursAt(s, p, j)
    decreases |s|
  {
    if |s| < |p| {
    } else if p <= s {
      assert OccursAt(s, p, 0);
    } else {
      assert !OccursAt(s, p, 0);
      IndexOfFirst(s[1..], p);
      OccursAtShiftAll(s, p);
    }
  }

  /** An occurrence with none before it is the index found. */
  lemma IndexOfAt(s: string, p: string, i: nat)
    requires OccursAt(s, p, i)
    requires forall j: nat :: j < i ==> !OccursAt(s, p, j)
    ensures IndexOf(s, p) == Some(i)
  {
    IndexOfFirst(s, p);
  }

  /** `p in s`. */
  predicate Contains(s: string, p: string)
  {
    IndexOf(s, p).Some?
  }

  /** A string lacking one of `p`'s characters cannot contain `p`. */
  lemma MissingCharNotContained(s: string, p: string, k: nat)
    requires k < |p| && p[k] !in s
    ensures !Contains(s, p)
  {
    IndexOfFirst(s, p);
    forall j: nat | OccursAt(s, p, j)
      ensures false
    {
    }
  }

  /** `s.split(sep)` for a non-empty separator: cut at every occurrence, left to right. */
  function Split(s: string, sep: string): (parts: seq<string>)
    requires |sep| > 0
    ensures |parts| >= 1
    decreases |s|
  {
    match IndexOf(s, sep)
    case None => [s]
    case Some(i) => [s[..i]] + Split(s[i + |sep|..], sep)
  }

  /** A string without the separator splits into itself. */
  lemma SplitWithout(s: string, sep: string)
    requires |sep| > 0 && !Contains(s, sep)
    ensures Split(s, sep) == [s]
  {
  }

  /** The split has a single part exactly when the separator does not occur. */
  lemma SplitOnePartIff(s: string, sep: string)
    requires |sep| > 0
    ensures |Split(s, sep)| == 1 <==> !Contains(s, sep)
  {
    match IndexOf(s, sep)
    case None =>
    case Some(i) =>
      SplitAt(s, sep, i);
  }

  /** No part of a split contains the separator. */
  lemma {:induction false} SplitPartsLackSeparator(s: string, sep: string)
    requires |sep| > 0
    ensures forall k :: 0 <= k < |Split(s, sep)| ==> !Contains(Split(s, sep)[k], sep)
    decreases |s|
  {
    match IndexOf(s, sep)
    case None =>
    case Some(i) =>
      SplitAt(s, sep, i);
      SplitPartsLackSeparator(s[i + |sep|..], sep);
      PrefixBeforeFirstOccurrence(s, sep, i);
      ConsLacksSeparator(s[..i], Split(s[i + |sep|..], sep), sep);
  }

  lemma ConsLacksSeparator(head: string, tail: seq<string>, sep: string)
    requires !Contains(head, sep)
    requires forall k :: 0 <= k < |tail| ==> !Contains(tail[k], sep)
    ensures forall k :: 0 <= k < |[head] + tail| ==> !Contains(([head] + tail)[k], sep)
  {
    forall k | 0 <= k < |[head] + tail| ensures !Contains(([head] + tail)[k], sep) {
      if k > 0 {
        assert ([head] + tail)[k] == tail[k - 1];
      }
    }
  }

  /** The text before the first occurrence of `sep` does not contain `sep`. */
  lemma PrefixBeforeFirstOccurrence(s: string, sep: string, i: nat)
    requires |sep| > 0 && IndexOf(s, sep) == Some(i)
    ensures !Contains(s[..i], sep)
  {
    IndexOfFirst(s, sep);
    forall j: nat | OccursAt(s[..i], sep, j)
      ensures false
    {
      OccursInPrefix(s, sep, i, j);
    }
    IndexOfFirst(s[..i], sep);
  }

  /** An occurrence inside a prefix is an occurrence in the whole string, ending within the prefix. */
  lemma OccursInPrefix(s: string, p: string, i: nat, j: nat)
    requires i <= |s| && OccursAt(s[..i], p, j)
    ensures OccursAt(s, p, j) && j + |p| <= i
  {
    assert s[..i][j..j + |p|] == s[j..j + |p|];
  }


  /** `sep.join(parts)`. */
  function Join(parts: seq<string>, sep: string): string
    requires |parts| >= 1
  {
    if |parts| == 1 then parts[0] else parts[0] + sep + Join(parts[1..], sep)
  }

  /** Cutting `s` around an occurrence of `p` and gluing the pieces back gives `s`. */
  lemma Reassemble(s: string, p: string, i: nat)
    requires OccursAt(s, p, i)
    ensures s == s[..i] + p + s[i + |p|..]
  {
    assert s == s[..i] + s[i..i + |p|] + s[i + |p|..];
  }

  /** Splitting loses nothing: joining the parts with the separator gives the input back. */
  lemma {:induction false} JoinSplit(s: string, sep: string)
    requires |sep| > 0
    ensures Join(Split(s, sep), sep) == s
    decreases |s|
  {
    match IndexOf(s, sep)
    case None =>
    case Some(i) =>
      var rest := s[i + |sep|..];
      var tail := Split(rest, sep);
      SplitAt(s, sep, i);
      JoinCons(s[..i], tail, sep);
      JoinSplit(rest, sep);
      Reassemble(s, sep, i);
  }

  /** At the first occurrence of the separator, the split takes the text before it and splits the rest. */
  lemma SplitAt(s: string, sep: string, i: nat)
    requires |sep| > 0 && IndexOf(s, sep) == Some(i)
    ensures Split(s, sep) == [s[..i]] + Split(s[i + |sep|..], sep)
  {
    var rest := s[i + |sep|..];
    assert Split(s, sep) == [s[..i]] + Split(rest, sep);
  }

  /** Joining a part in front of a non-empty list puts the separator between them. */
  lemma JoinCons(head: string, tail: seq<string>, sep: string)
    requires |tail| >= 1
    ensures Join([head] + tail, sep) == head + sep + Join(tail, sep)
  {
    assert ([head] + tail)[1..] == tail;
  }

  /** Splitting a string that starts with the separator gives an empty first part. */
  lemma SplitLeadingSeparator(sep: string, rest: string)
    requires |sep| > 0
    ensures Split(sep + rest, sep) == [""] + Split(rest, sep)
  {
    var s := sep + rest;
    assert OccursAt(s, sep, 0);
    assert s[|sep|..] == rest;
  }
}

=== FILE: wrappers.dfy ===
/** Failure-carrying datatypes shared by the whole model. */
module Wrappers {

  /** A value that may be absent; Python's `None` is `None` here. */
  datatype Option<+T> = None | Some(value: T)

  /** The outcome of a computation that may raise. */
  datatype Result<+T, +E> = Ok(value: T) | Err(error: E)
}
